=== FILE: README.md ===
# Stacking tic-tac-toe engine in Dafny

This project models the game engine of a stacking variant of tic-tac-toe
played between a human (`PLAYER` in the program, `Human` here) and an AI.
Each side holds an inventory of marks at three strengths: five of level 1,
two of level 2 and one of level 3. A side places a mark on an empty cell, or
on top of an opponent's mark of a strictly lower level. A side wins by
holding a whole row, column or diagonal, at any levels. The AI picks its
reply by a minimax search with alpha-beta pruning. The search
scores an AI win at depth `d` as `100 - d` and a human win as `-100 + d`.

The model is made of pure functions over immutable values:

- `GameSchema` (schema.dfy): sides, marks, cells, the 3x3 board, inventories,
  the game state and moves, with the validity predicates the request schema
  enforces.
- `WinCheck` (check_win.dfy): the win test, proved equal to "holds one of
  the eight lines".
- `BoardFull` (check_board_full.dfy): the draw test, proved equal to "no
  empty cell".
- `BoardMove` (move_board.dfy): placing a mark and using up one inventory
  mark.
- `MoveGen` (move_gen.dfy): the move generator, proved sound, complete and
  ordered against an independent placement rule `IsLegal`.
- `Search` (search.dfy): the terminal check, one ply of play, and the
  minimax search with its move loop.
- `SearchProperties` (search_properties.dfy): what the move loop returns,
  stated against an independent account of it. `Evaluated` is the sequence
  of child scores the loop sees, up to and including the score that closes
  the window. `BestOf` is the
  best of those scores, with the last move that reaches it.
- `GameService` (game_service.dfy): the AI's reply and a new game.

The search terminates because every ply uses up one inventory mark: the
measure is `Stock`, the marks both sides still hold. Every ply also raises
the board's level sum, since a mark goes on an empty cell or on a weaker
mark. The sum of nine cells of level at most 3 is at most 27, so at most
`Headroom` = 27 minus the level sum plies follow a position. The score
bounds are stated within the horizon where the depth plus the headroom is
at most 200. Every depth up to 173 lies within it, the program's root
depth 0 among them.

The model follows the code as written, including these behaviours, which
a reader might not expect:

- A full board scores 0 even when a side holds a line. The three terminal
  tests run in turn and each later hit overwrites the earlier one.
- For the same reason a human line outranks an AI line.
- A non-terminal position where the side to move has no move scores the
  worst value for that side (`-100` for the AI, `100` for the human), not 0.
- Ties go to the later move. The code replaces the chosen move whenever a
  child's score equals the updated best score.
- A win one ply below the root scores 99, not 100, because the child lies
  at depth 1.
- The move chosen need not be the best one. A child cut off by the window
  returns only a bound, and a tie with that bound goes to the later move.
  On the board `[[_, A2, H1], [A2, A2, H1], [H1, H1, _]]` (A for the AI,
  H for the human, the digit the level, `_` empty), with the AI holding
  two level-1 marks and the human one level-1 and one level-2 mark, the AI
  has two moves. Filling (0,0) scores 0: every line of play after it ends
  on a full board, which the program scores 0 even where the human has
  completed a line. Filling (2,2) loses, since the human covers it at level 2 and
  completes row 2 and column 2. The search scores (0,0) first, at 0, which
  raises alpha to 0. It then searches (2,2) in the window (0, 100). The
  human's first generated reply, level 1 on (0,0), fills the board and
  scores 0, which closes that window, so the winning reply is never looked
  at. Both moves score 0 and the AI picks (2,2). The model calls this
  position `PruningExample`.

## Model

| member | source | states |
|---|---|---|
| GameSchema.ValidCell | src/services/game/game.schema.ts:9-15 | A cell is empty or holds a mark of either side with a level from 1 to 3 |
| GameSchema.ValidBoard | src/services/game/game.schema.ts:25-33 | A board has three rows of three cells, each of them valid |
| GameSchema.ValidInventory | src/services/game/game.schema.ts:35-42 | Each of the three level counts is at least 0, with no upper limit |
| GameSchema.ValidGame | src/services/game/game.schema.ts:44-49 | A game has a valid inventory for each side and a valid board; nothing relates the board to the inventories |
| GameSchema.ValidMove | src/services/game/game.schema.ts:17-23 | A move has a side and a level from 1 to 3; its row and column are unconstrained |
| GameSchema.EmptyBoard | src/services/game/game.service.ts:225 | The board of a new game is a valid 3x3 board with every cell empty |
| GameSchema.Decrement | src/utils/move-board.ts:8 | One mark of the given level is used up, every other level keeps its count, and the total drops by one; no check is made that a mark was left |
| WinCheck.CheckWin | src/utils/check-win.ts:3-24 | A side has won exactly when it holds all three cells of one of the eight lines (three rows, three columns, two diagonals) |
| WinCheck.RowScanMatchesLines | src/utils/check-win.ts:5-8 | The row loop finds a win exactly when the side holds one of the three row lines |
| WinCheck.ColumnScanMatchesLines | src/utils/check-win.ts:11-14 | The column loop finds a win exactly when the side holds one of the three column lines |
| WinCheck.DiagonalScansMatchLines | src/utils/check-win.ts:17-20 | Each diagonal check finds a win exactly when the side holds that diagonal |
| WinCheck.ScansMatchLines | src/utils/check-win.ts:3-24 | Rows, then columns, then both diagonals together cover exactly the eight lines |
| WinCheck.WinIgnoresLevels | src/utils/check-win.ts:7-20 | Two boards whose cells have the same owners have the same winners, whatever the levels |
| WinCheck.EmptyBoardHasNoWinner | src/utils/check-win.ts:7 | An empty cell never counts for a side, so nobody has won on the empty board |
| WinCheck.WinSurvivesTranspose | src/utils/check-win.ts:5-20 | Mirroring the board along its main diagonal never changes who has won |
| BoardFull.CheckBoardFull | src/utils/check-board-full.ts:3-5 | The board is full exactly when the set of its empty cells is empty |
| BoardFull.FullnessIgnoresMarks | src/utils/check-board-full.ts:4 | Boards with empty cells in the same places are equally full, whoever holds the other cells at whatever level |
| BoardFull.EmptyBoardNotFull | src/utils/check-board-full.ts:4 | All nine cells of the empty board are empty, so it is not full |
| BoardMove.MoveBoard | src/utils/move-board.ts:4-10 | The target cell holds the mover's mark at the move's level and every other cell is unchanged; the inventory loses one mark of that level only; a valid board stays valid; a valid inventory stays valid exactly when a mark of that level was left |
| BoardMove.PlacementFillsTarget | src/utils/move-board.ts:7 | After a placement the empty cells are the old ones less the target cell |
| BoardMove.PlacementKeepsFull | src/utils/move-board.ts:7 | A placement never frees a cell, so a full board stays full |
| MoveGen.LevelMoves | src/services/game/game.service.ts:30-33 | The level loop yields exactly the levels from its start up to 3 that the mover still holds, at the given cell, in rising level |
| MoveGen.CellMoves | src/services/game/game.service.ts:23-33 | The moves generated at one cell are exactly the legal moves there: none on the mover's own mark, levels above an opponent's mark, any held level on an empty cell |
| MoveGen.MovesFrom | src/services/game/game.service.ts:21-35 | The nested row and column loops from a cell on yield exactly the legal moves at that cell or later, in generator order |
| MoveGen.FindPossibleMoves | src/services/game/game.service.ts:13-37 | The generator yields every legal move of the side and nothing else, each once, ordered by row-major cell and then by level |
| Search.Terminal | src/services/game/game.service.ts:88-104 | A full board scores 0; otherwise a human line scores `-100 + depth`; otherwise an AI line scores `100 - depth`; the position is non-terminal exactly when none of the three holds |
| Search.Play | src/services/game/game.service.ts:120-123 | A child position has the move's mark on the target cell and every other cell unchanged, the mover has one mark fewer of that level, the other side's inventory is untouched, the game stays valid and the search measure drops by one |
| Search.LevelSum | src/services/game/game.schema.ts:9-33 | The levels on a valid board sum to between 0 and 27 |
| Search.PlayRaisesLevelSum | src/services/game/game.service.ts:29 | A legal move puts a stronger mark on its cell than was there, so the board's level sum rises |
| Search.ShallowIsWithinHorizon | src/services/game/game.service.ts:73-75 | Every valid game is within the horizon at every depth from 0 to 173, including the default root depth 0 |
| Search.ShallowScoresInRange | src/services/game/game.service.ts:70-179 | A search started at any depth from 0 to 173 scores within [-100, 100] |
| Search.Minimax | src/services/game/game.service.ts:70-179 | Within the horizon the score lies in [-100, 100]; a terminal position returns its terminal score and no move; any move returned is legal; no move is returned exactly when the position is terminal or the mover has no move; with no move at a non-terminal position the score is the mover's worst value |
| Search.Expand | src/services/game/game.service.ts:106-117 | Expanding a position returns a legal move exactly when the mover has one, and otherwise the mover's worst score and no move; within the horizon the score lies in [-100, 100] |
| Search.ChildScore | src/services/game/game.service.ts:126-132 | Within the horizon the child's score lies in [-100, 100] |
| Search.Loop | src/services/game/game.service.ts:118-137 | The move loop never returns a worse score than its running best for the mover, returns a move taken from the moves or the provisional one, and keeps a move once it has one |
| SearchProperties.Extreme | src/services/game/game.service.ts:133 | The best score for the mover bounds the starting best and every score, and is reached by one of them |
| SearchProperties.LastIndexOf | src/services/game/game.service.ts:134 | The index returned holds the value and no later index does; -1 means the value does not occur |
| SearchProperties.WindowAfterIsExtreme | src/services/game/game.service.ts:135 | After a run of scores the AI's alpha is the best of its start and those scores, and the human's beta likewise |
| SearchProperties.EvaluatedAreChildScores | src/services/game/game.service.ts:126-132 | Each evaluated score is its move's child search, run in the window left by the scores evaluated before it |
| SearchProperties.EvaluatedWithinBounds | src/services/game/game.service.ts:116-137 | Within the horizon every evaluated score lies in [-100, 100] |
| SearchProperties.EvaluatedStopsAtFirstCutoff | src/services/game/game.service.ts:135-136 | The window is still open after every evaluated score but the last, and the loop stops before the end only when the last score closed it |
| SearchProperties.BestOfStep | src/services/game/game.service.ts:133-134 | Folding one score into the running best, and taking its move when it matches, is the first step of the overall best and its last matching move |
| SearchProperties.LoopFollowsEvaluated | src/services/game/game.service.ts:118-137 | The move loop returns the best of its starting score and the evaluated scores, with the last evaluated move reaching it, or the provisional move when none does |
| SearchProperties.BestIsReached | src/services/game/game.service.ts:116-117 | When every score is within [-100, 100], some score reaches the best of the worst value and the scores |
| SearchProperties.ExpandKeepsLastBest | src/services/game/game.service.ts:106-178 | Expanding a position returns the best of the worst value and the evaluated child scores, with the last move reaching it; ties go to the later move |
| SearchProperties.SearchKeepsLastBest | src/services/game/game.service.ts:70-179 | At a non-terminal position the search returns the best evaluated child score and the last move reaching it |
| SearchProperties.SearchChoosesEvaluatedMove | src/services/game/game.service.ts:116-117 | Within the horizon, with a move available, some evaluated child reaches the best score, so the first move is never kept merely as the default |
| SearchProperties.FullBoardIsDrawDespiteLine | src/services/game/game.service.ts:90-99 | On one full board where the AI holds the top row, the terminal check still scores 0, an example of the draw test overriding a line |
| SearchProperties.HumanLineOutranksAiLine | src/services/game/game.service.ts:91-96 | On one board where the AI holds the top row and the human the middle row, the terminal check scores a human win, an example of the human line overriding the AI line |
| MoveGen.FirstCellMoveLeads | src/services/game/game.service.ts:21-33 | The loops start at row 0, column 0 and level 1, so a legal level-1 move on the first cell is the first move generated |
| SearchProperties.SearchIsLoop | src/services/game/game.service.ts:106-118 | At a non-terminal position with a move, the search is the move loop started at the mover's worst score with the first move as the provisional choice |
| SearchProperties.ChildScoreIsSearch | src/services/game/game.service.ts:119-132 | A child's score is the opponent's search of the position after the move, one ply deeper, in the current window |
| SearchProperties.FillingLastCellDraws | src/services/game/game.service.ts:97-99 | A move onto the only empty cell fills the board, so its child scores 0 in any window and at any depth |
| SearchProperties.LoopStopsAtFirst | src/services/game/game.service.ts:135-136 | When the first child's score closes the window, the loop stops there and returns that score, bounded by the mover's worst value, with the first move |
| SearchProperties.FirstChildCutsOff | src/services/game/game.service.ts:114-137 | When the first generated move's child closes the window, the search returns that child's score and the first move, without looking at the other moves |
| SearchProperties.FirstMoveFillsLastCell | src/services/game/game.service.ts:149-170 | When the first generated move fills the last empty cell and a draw closes the window, the search returns 0 with that move |
| SearchProperties.LoopOfEqualScores | src/services/game/game.service.ts:118-137 | When every remaining child scores the same value in every window, the loop returns that value |
| SearchProperties.EqualChildrenScore | src/services/game/game.service.ts:106-178 | When every legal move's child scores the same value in every window, the search scores that value, whatever its own window |
| SearchProperties.LoopOverTwo | src/services/game/game.service.ts:118-137 | Over two moves, the first leaving the window open, the loop returns the better of the two child scores, the second searched in the window the first leaves; on a tie it returns the second move |
| SearchProperties.TiedPairPicksSecond | src/services/game/game.service.ts:133-134 | At a position with exactly two moves whose children score the same, the first leaving the window open, the search returns that score and the second move |
| SearchProperties.RootTiedDrawPicksSecond | src/services/game/game.service.ts:114-137 | At a root where the AI has two moves and both children draw, the first in the full window and the second in the window (0, 100) the first leaves, the search returns 0 and the second move |
| SearchProperties.PruningExampleMoves | src/services/game/game.service.ts:21-33 | On the pruning example the AI's moves are level 1 on (0,0), then level 1 on (2,2) |
| SearchProperties.PruningExampleReplyLoses | src/services/game/game.service.ts:91-96 | On the pruning example, after the AI fills (2,2) the human's level-2 reply on (2,2) is legal and wins, scoring -98 at depth 2 |
| SearchProperties.PruningExampleCutsOff | src/services/game/game.service.ts:149-170 | After the AI fills (2,2), a search whose alpha is at least 0 stops at the human's first reply and returns 0 with it, not the value of the winning reply |
| SearchProperties.PruningExampleCoveredDraws | src/services/game/game.service.ts:114-145 | After the AI fills (0,0) and the human covers it at level 2, the AI's search scores 0 in any window |
| SearchProperties.PruningExampleOtherDraws | src/services/game/game.service.ts:148-178 | After the AI fills (0,0), the human's search scores 0 in any window, because every reply draws |
| SearchProperties.PruningExampleFirstMoveDraws | src/services/game/game.service.ts:126-133 | On the pruning example, filling (0,0) is legal and its child scores 0 in the full window |
| SearchProperties.PruningExampleSecondMoveDraws | src/services/game/game.service.ts:126-135 | On the pruning example, filling (2,2) is legal and its child scores 0 in the window (0, 100) left by the first move |
| SearchProperties.PruningExampleChoosesLoss | src/services/game/game.service.ts:114-145 | The search from the pruning example's root in the full window at depth 0 returns score 0 and the move (2,2); by `PruningExampleReplyLoses` and `PruningExampleFirstMoveDraws`, that is a move the human can win against, chosen over one that draws |
| GameService.AiRespond | src/services/game/game.service.ts:203-212 | The reply fails with "No move found" exactly when the game is over or the AI has no move; otherwise it plays the search's move, which is legal, changes only the target cell and the AI's inventory, and leaves a valid game with one mark fewer |
| GameService.Create | src/services/game/game.service.ts:214-226 | A new game is valid, has an empty board and gives both sides five level-1, two level-2 and one level-3 mark |
| GameService.NewGameIsOpen | src/services/game/game.service.ts:225 | A new game is not over: nobody holds a line and the board has room |
| GameService.OpeningMoves | src/services/game/game.service.ts:21-33 | On a new game a side may place any level on any cell, and nothing else |
| GameService.NewGameHasReply | src/services/game/game.service.ts:203-208 | The AI always has a reply to a new game |

## Left out

- The persistent result cache is left out as external storage: the lookup by a hash of the game and the side to move, the stores after each result, and clearing the cache. The key leaves out the window and the depth, and a pruned node's score and move are stored too. So with the cache, the program's result can depend on earlier searches: a position first searched in a narrow window returns that window's cut-off result to a later search with a wider one. The model is the search without the cache.
- The pre-training entry point, which runs the search from a new game for both sides to warm the cache, is left out. Its only effects are cache writes and console output.
- The debug board renderer is left out, since it only prints.
- Deep copying, JSON encoding and the hashing library are not modelled. Values are immutable here, so copies are implicit.
- The reply mutates its input game in place in the program. Here it returns a new game, which is what the route sends back.
- A new game in the program shares one row array across the three rows and one inventory object between the sides. The reply writes into its argument without copying, so the sharing would matter if a new game went straight into the reply. Between the two routes the game passes through JSON, which separates them. The deep-copy helper is not part of this model, so whether its copies keep such sharing is not stated. Here the rows and inventories are separate values.
- The route handlers, the request validation wiring, the client and the UI components are left out.
- The request schema admits non-integer levels and counts, such as a level of 1.5, and the program then reads inventory keys that do not exist. The model takes integers only. The program's counts are floating-point numbers, so a count above 2^53 is not decremented exactly, and "one mark fewer" can leave it unchanged. This affects `Decrement`, `Play` and `AiRespond`. The model's counts are exact integers. Search results do not depend on it, since the generator only tests whether a count is at most 0.
- BoardMove.MoveBoard: requires the target to be on the board and the level to be 1 to 3. No caller in the program reaches this helper. The search and the reply write the cell and decrement the count themselves, and they only ever apply generator moves. The model does not cover three off-board cases. A row outside 0 to 2 makes the program throw, because it writes into a row that does not exist. A column of 3 or more writes a cell past the end of the row. A negative or fractional column, such as -1 or 1.5, adds a property to the row that is not an index, and the row's length and three cells stay unchanged. A level outside 1 to 3 creates a new inventory key, whose value becomes NaN.
- Search.Minimax: every engine function requires a valid game. The request schema guarantees this before the engine runs.
- Search.Minimax: the [-100, 100] score bound is stated only within the horizon, where the depth plus the headroom is at most 200. That covers every depth up to 173, and `ShallowScoresInRange` states it for them. The program always starts at depth 0. A search started deeper than the horizon may reach a terminal position deeper than 200, whose score leaves the range.
- Search.Minimax: the move chosen is not claimed to be minimax-optimal. Alpha-beta pruning returns only a bound for a cut-off child, and ties go to the later move, so the move can be worse than another available move. `PruningExampleChoosesLoss` shows one such position.
- Search.Expand: its [-100, 100] bound is stated only within the horizon, for the same reason as for `Minimax`.
- Search.ChildScore: its [-100, 100] bound is stated only within the horizon, for the same reason as for `Minimax`.
- SearchProperties.EvaluatedWithinBounds: the bound on the evaluated scores is stated only within the horizon, for the same reason as for `Minimax`.
- SearchProperties.SearchChoosesEvaluatedMove: stated only within the horizon, because it rests on the evaluated scores lying within [-100, 100].
- Search.ChildScore: it goes through `ScoreAfter` and `Score`. These are layers of the model only, and the program makes the recursive call directly.

=== FILE: check_board_full.dfy ===
/** The draw test: the board is full when no cell is empty. */
module BoardFull {
  import opened GameSchema

  /** The coordinates of the empty cells. */
  function EmptyCells(b: Board): set<(int, int)>
    requires IsGrid(b)
  {
    set i, j | 0 <= i < 3 && 0 <= j < 3 && b[i][j].None? :: (i, j)
  }

  /** Every row has every cell occupied, by either side at any level. */
  function CheckBoardFull(b: Board): (full: bool)
    requires IsGrid(b)
    ensures full <==> EmptyCells(b) == {}
  {
    var full := forall i :: 0 <= i < |b| ==> forall j :: 0 <= j < |b[i]| ==> b[i][j].Some?;
    assert !full ==> exists i, j :: 0 <= i < 3 && 0 <= j < 3 && b[i][j].None? && (i, j) in EmptyCells(b);
    full
  }

  /** Two boards with empty cells in the same places. */
  predicate SameOccupancy(b1: Board, b2: Board)
    requires IsGrid(b1) && IsGrid(b2)
  {
    forall i, j :: 0 <= i < 3 && 0 <= j < 3 ==> (b1[i][j].None? <==> b2[i][j].None?)
  }

  /** Fullness reads occupancy only: owners and levels never matter. */
  lemma FullnessIgnoresMarks(b1: Board, b2: Board)
    requires IsGrid(b1) && IsGrid(b2) && SameOccupancy(b1, b2)
    ensures CheckBoardFull(b1) == CheckBoardFull(b2)
  {
    assert EmptyCells(b1) == EmptyCells(b2);
  }

  /** The empty board is not full: all nine cells are free. */
  lemma EmptyBoardNotFull()
    ensures EmptyCells(EmptyBoard()) == set i, j | 0 <= i < 3 && 0 <= j < 3 :: (i, j)
    ensures !CheckBoardFull(EmptyBoard())
  {
    assert (0, 0) in EmptyCells(EmptyBoard());
  }
}

=== FILE: check_win.dfy ===
/** The win test: a side has won when it holds all three cells of a row, a
    column or a diagonal, at any levels. */
module WinCheck {
  import opened GameSchema

  /** Every cell of the line is held by `p`; an empty cell never counts. */
  predicate AllOwnedBy(cells: seq<Cell>, p: Player) {
    forall k :: 0 <= k < |cells| ==> Owns(cells[k], p)
  }

  function Column(b: Board, j: int): seq<Cell>
    requires IsGrid(b) && 0 <= j < 3
  {
    [b[0][j], b[1][j], b[2][j]]
  }

  function Diagonal(b: Board): seq<Cell>
    requires IsGrid(b)
  {
    [b[0][0], b[1][1], b[2][2]]
  }

  function AntiDiagonal(b: Board): seq<Cell>
    requires IsGrid(b)
  {
    [b[0][2], b[1][1], b[2][0]]
  }

  /** Some row from index `i` on is held by `p` (the row loop). */
  predicate RowWinFrom(b: Board, p: Player, i: int)
    requires IsGrid(b) && 0 <= i <= 3
    decreases 3 - i
  {
    i < 3 && (AllOwnedBy(b[i], p) || RowWinFrom(b, p, i + 1))
  }

  /** Some column from index `j` on is held by `p` (the column loop). */
  predicate ColumnWinFrom(b: Board, p: Player, j: int)
    requires IsGrid(b) && 0 <= j <= 3
    decreases 3 - j
  {
    j < 3 && (AllOwnedBy(Column(b, j), p) || ColumnWinFrom(b, p, j + 1))
  }

  /** The eight winning lines as coordinate triples: three rows, three
      columns, the main diagonal and the anti-diagonal. */
  const Lines: seq<seq<(int, int)>> := [
    [(0, 0), (0, 1), (0, 2)],
    [(1, 0), (1, 1), (1, 2)],
    [(2, 0), (2, 1), (2, 2)],
    [(0, 0), (1, 0), (2, 0)],
    [(0, 1), (1, 1), (2, 1)],
    [(0, 2), (1, 2), (2, 2)],
    [(0, 0), (1, 1), (2, 2)],
    [(0, 2), (1, 1), (2, 0)]
  ]

  /** `p` holds every coordinate of `line`. */
  predicate HoldsLine(b: Board, p: Player, line: seq<(int, int)>)
    requires IsGrid(b)
  {
    forall k :: 0 <= k < |line| ==> OnBoard(line[k].0, line[k].1) && Owns(b[line[k].0][line[k].1], p)
  }

  /** Whether `p` has won: the rows, then the columns, then both diagonals. */
  function CheckWin(b: Board, p: Player): (won: bool)
    requires IsGrid(b)
    ensures won <==> exists n :: 0 <= n < |Lines| && HoldsLine(b, p, Lines[n])
  {
    ScansMatchLines(b, p);
    RowWinFrom(b, p, 0) || ColumnWinFrom(b, p, 0) || AllOwnedBy(Diagonal(b), p) || AllOwnedBy(AntiDiagonal(b), p)
  }

  /** A three-cell line is held exactly when each of its cells is. */
  lemma AllOwnedByThree(cells: seq<Cell>, p: Player)
    requires |cells| == 3
    ensures AllOwnedBy(cells, p) <==> Owns(cells[0], p) && Owns(cells[1], p) && Owns(cells[2], p)
  {
  }

  lemma HoldsLineThree(b: Board, p: Player, line: seq<(int, int)>)
    requires IsGrid(b) && |line| == 3
    requires OnBoard(line[0].0, line[0].1) && OnBoard(line[1].0, line[1].1) && OnBoard(line[2].0, line[2].1)
    ensures HoldsLine(b, p, line) <==>
      Owns(b[line[0].0][line[0].1], p) && Owns(b[line[1].0][line[1].1], p) && Owns(b[line[2].0][line[2].1], p)
  {
  }

  /** The row loop reads the first three of `Lines`. */
  lemma RowScanMatchesLines(b: Board, p: Player)
    requires IsGrid(b)
    ensures RowWinFrom(b, p, 0) <==>
      HoldsLine(b, p, Lines[0]) || HoldsLine(b, p, Lines[1]) || HoldsLine(b, p, Lines[2])
  {
    assert RowWinFrom(b, p, 0) <==> AllOwnedBy(b[0], p) || AllOwnedBy(b[1], p) || AllOwnedBy(b[2], p);
    forall i | 0 <= i < 3
      ensures AllOwnedBy(b[i], p) <==> HoldsLine(b, p, Lines[i])
    {
      AllOwnedByThree(b[i], p);
      HoldsLineThree(b, p, Lines[i]);
    }
  }

  /** The column loop reads the next three of `Lines`. */
  lemma ColumnScanMatchesLines(b: Board, p: Player)
    requires IsGrid(b)
    ensures ColumnWinFrom(b, p, 0) <==>
      HoldsLine(b, p, Lines[3]) || HoldsLine(b, p, Lines[4]) || HoldsLine(b, p, Lines[5])
  {
    assert ColumnWinFrom(b, p, 0) <==>
      AllOwnedBy(Column(b, 0), p) || AllOwnedBy(Column(b, 1), p) || AllOwnedBy(Column(b, 2), p);
    forall j | 0 <= j < 3
      ensures AllOwnedBy(Column(b, j), p) <==> HoldsLine(b, p, Lines[3 + j])
    {
      AllOwnedByThree(Column(b, j), p);
      HoldsLineThree(b, p, Lines[3 + j]);
    }
  }

  /** The two diagonal checks read the last two of `Lines`. */
  lemma DiagonalScansMatchLines(b: Board, p: Player)
    requires IsGrid(b)
    ensures AllOwnedBy(Diagonal(b), p) <==> HoldsLine(b, p, Lines[6])
    ensures AllOwnedBy(AntiDiagonal(b), p) <==> HoldsLine(b, p, Lines[7])
  {
    AllOwnedByThree(Diagonal(b), p);
    HoldsLineThree(b, p, Lines[6]);
    AllOwnedByThree(AntiDiagonal(b), p);
    HoldsLineThree(b, p, Lines[7]);
  }

  /** Together the scans of the win test read exactly the eight `Lines`. */
  lemma ScansMatchLines(b: Board, p: Player)
    requires IsGrid(b)
    ensures RowWinFrom(b, p, 0) || ColumnWinFrom(b, p, 0) || AllOwnedBy(Diagonal(b), p) || AllOwnedBy(AntiDiagonal(b), p)
      <==> exists n :: 0 <= n < |Lines| && HoldsLine(b, p, Lines[n])
  {
    RowScanMatchesLines(b, p);
    ColumnScanMatchesLines(b, p);
    DiagonalScansMatchLines(b, p);
    if exists n :: 0 <= n < |Lines| && HoldsLine(b, p, Lines[n]) {
      var n :| 0 <= n < |Lines| && HoldsLine(b, p, Lines[n]);
      assert n in {0, 1, 2, 3, 4, 5, 6, 7};
    }
  }

  /** Two boards whose cells have the same owners, whatever the levels. */
  predicate SameOwners(b1: Board, b2: Board)
    requires IsGrid(b1) && IsGrid(b2)
  {
    forall i, j :: 0 <= i < 3 && 0 <= j < 3 ==> OwnerOf(b1[i][j]) == OwnerOf(b2[i][j])
  }

  /** The win test reads owners only: levels never matter. */
  lemma WinIgnoresLevels(b1: Board, b2: Board, p: Player)
    requires IsGrid(b1) && IsGrid(b2) && SameOwners(b1, b2)
    ensures CheckWin(b1, p) == CheckWin(b2, p)
  {
    forall n | 0 <= n < |Lines|
      ensures HoldsLine(b1, p, Lines[n]) == HoldsLine(b2, p, Lines[n])
    {
      var line := Lines[n];
      forall k | 0 <= k < |line| && OnBoard(line[k].0, line[k].1)
        ensures Owns(b1[line[k].0][line[k].1], p) == Owns(b2[line[k].0][line[k].1], p)
      {
        assert OwnerOf(b1[line[k].0][line[k].1]) == OwnerOf(b2[line[k].0][line[k].1]);
      }
    }
  }

  /** Nobody has won on the empty board. */
  lemma EmptyBoardHasNoWinner(p: Player)
    ensures !CheckWin(EmptyBoard(), p)
  {
    var b := EmptyBoard();
    forall n | 0 <= n < |Lines|
      ensures !HoldsLine(b, p, Lines[n])
    {
      assert !Owns(b[Lines[n][0].0][Lines[n][0].1], p);
    }
  }

  /** The board mirrored along its main diagonal. */
  function Transpose(b: Board): (t: Board)
    requires IsGrid(b)
    ensures IsGrid(t)
    ensures forall i, j :: 0 <= i < 3 && 0 <= j < 3 ==> t[i][j] == b[j][i]
  {
    [[b[0][0], b[1][0], b[2][0]],
     [b[0][1], b[1][1], b[2][1]],
     [b[0][2], b[1][2], b[2][2]]]
  }

  /** Transposing swaps rows with columns and maps each diagonal onto
      itself (the anti-diagonal is read in reverse), so it never changes
      who has won. */
  lemma WinSurvivesTranspose(b: Board, p: Player)
    requires IsGrid(b)
    ensures CheckWin(Transpose(b), p) == CheckWin(b, p)
  {
    var t := Transpose(b);
    forall i | 0 <= i < 3
      ensures t[i] == Column(b, i) && Column(t, i) == b[i]
    {
      assert Column(t, i) == [b[i][0], b[i][1], b[i][2]];
    }
    assert RowWinFrom(t, p, 0) <==> AllOwnedBy(t[0], p) || AllOwnedBy(t[1], p) || AllOwnedBy(t[2], p);
    assert ColumnWinFrom(t, p, 0) <==>
      AllOwnedBy(Column(t, 0), p) || AllOwnedBy(Column(t, 1), p) || AllOwnedBy(Column(t, 2), p);
    assert RowWinFrom(b, p, 0) <==> AllOwnedBy(b[0], p) || AllOwnedBy(b[1], p) || AllOwnedBy(b[2], p);
    assert ColumnWinFrom(b, p, 0) <==>
      AllOwnedBy(Column(b, 0), p) || AllOwnedBy(Column(b, 1), p) || AllOwnedBy(Column(b, 2), p);
    assert Diagonal(t) == Diagonal(b);
    AllOwnedByThree(AntiDiagonal(t), p);
    AllOwnedByThree(AntiDiagonal(b), p);
  }
}

=== FILE: game_service.dfy ===
/** The service entry points the routes call: the AI's reply to a game and
    a fresh game. */
module GameService {
  import opened Wrappers
  import opened GameSchema
  import opened WinCheck
  import opened BoardFull
  import opened MoveGen
  import opened Search

  /** The error the reply raises when the search returns no move. */
  const NoMoveFound: string := "No move found"

  /** What each side holds at the start: five level-1, two level-2 and
      one level-3 mark. */
  const InitialInventory: Inventory := Inventory(5, 2, 1)

  /** The AI's reply: search the game with the AI to move from the widest
      window at depth 0, and play the move found. A finished game, or one
      where the AI cannot move, has no move and fails. */
  function AiRespond(g: Game): (r: Result<Game>)
    requires ValidGame(g)
    ensures r.Failure? <==> Terminal(g.board, 0).Some? || FindPossibleMoves(g.board, AI, g.aiState) == []
    ensures r.Failure? ==> r.error == NoMoveFound
    ensures r.Success? ==>
      var found := Minimax(g, AI, -MaxValue, MaxValue, 0).move;
      && found.Some?
      && IsLegal(g.board, AI, g.aiState, found.value)
      && Placed(g, r.value, AI, found.value)
    ensures r.Success? ==> ValidGame(r.value) && Stock(r.value) == Stock(g) - 1
    ensures r.Success? ==> r.value.playerState == g.playerState
  {
    var found := Minimax(g, AI, -MaxValue, MaxValue, 0).move;
    if found.None? then Failure(NoMoveFound)
    else Success(Play(g, AI, found.value))
  }

  /** A new game: an empty board and the initial inventory on both sides. */
  function Create(): (g: Game)
    ensures ValidGame(g)
    ensures forall i, j :: 0 <= i < 3 && 0 <= j < 3 ==> g.board[i][j].None?
    ensures g.aiState == InitialInventory && g.playerState == InitialInventory
    ensures Stock(g) == 16
  {
    Game(InitialInventory, InitialInventory, EmptyBoard())
  }

  /** A new game is not over: nobody has a line and the board has room. */
  lemma NewGameIsOpen()
    ensures Terminal(Create().board, 0).None?
  {
    EmptyBoardHasNoWinner(Human);
    EmptyBoardHasNoWinner(AI);
    EmptyBoardNotFull();
  }

  /** On a new game either side may place any level on any cell. */
  lemma OpeningMoves(p: Player)
    ensures forall m :: m in FindPossibleMoves(Create().board, p, InventoryOf(Create(), p)) <==>
      m.player == p && OnBoard(m.row, m.col) && ValidLevel(m.level)
  {
    var g := Create();
    forall m
      ensures IsLegal(g.board, p, InventoryOf(g, p), m) <==> m.player == p && OnBoard(m.row, m.col) && ValidLevel(m.level)
    {
      if OnBoard(m.row, m.col) {
        assert g.board[m.row][m.col].None?;
      }
    }
  }

  /** The AI always has a reply to a new game. */
  lemma NewGameHasReply()
    ensures AiRespond(Create()).Success?
  {
    NewGameIsOpen();
    OpeningMoves(AI);
    assert Move(AI, 1, 0, 0) in FindPossibleMoves(Create().board, AI, Create().aiState);
  }
}

=== FILE: move_board.dfy ===
/** Placing a mark: the target cell takes the new mark and the mover's
    inventory loses one mark of that level. Nothing checks that the move
    is legal. */
module BoardMove {
  import opened Wrappers
  import opened GameSchema
  import opened BoardFull

  /** The board and inventory after a placement. */
  datatype Placement = Placement(board: Board, state: Inventory)

  function MoveBoard(b: Board, m: Move, inv: Inventory): (r: Placement)
    requires IsGrid(b) && OnBoard(m.row, m.col) && ValidMove(m)
    ensures IsGrid(r.board)
    ensures r.board[m.row][m.col] == Some(Mark(m.player, m.level))
    ensures forall i, j :: 0 <= i < 3 && 0 <= j < 3 && (i, j) != (m.row, m.col) ==> r.board[i][j] == b[i][j]
    ensures Remaining(r.state, m.level) == Remaining(inv, m.level) - 1
    ensures forall l :: ValidLevel(l) && l != m.level ==> Remaining(r.state, l) == Remaining(inv, l)
    ensures ValidBoard(b) ==> ValidBoard(r.board)
    ensures ValidInventory(inv) ==> (ValidInventory(r.state) <==> Remaining(inv, m.level) > 0)
  {
    var board := b[m.row := b[m.row][m.col := Some(Mark(m.player, m.level))]];
    Placement(board, Decrement(inv, m.level))
  }

  /** A placement fills exactly its target cell. */
  lemma PlacementFillsTarget(b: Board, m: Move, inv: Inventory)
    requires IsGrid(b) && OnBoard(m.row, m.col) && ValidMove(m)
    ensures EmptyCells(MoveBoard(b, m, inv).board) == EmptyCells(b) - {(m.row, m.col)}
  {
  }

  /** A placement never frees a cell: a full board stays full. */
  lemma PlacementKeepsFull(b: Board, m: Move, inv: Inventory)
    requires IsGrid(b) && OnBoard(m.row, m.col) && ValidMove(m)
    ensures CheckBoardFull(b) ==> CheckBoardFull(MoveBoard(b, m, inv).board)
  {
    PlacementFillsTarget(b, m, inv);
  }
}

=== FILE: move_gen.dfy ===
/** The legal-move generator: cells in row-major order, and within a cell
    every level the mover may place there, lowest first. */
module MoveGen {
  import opened GameSchema

  /** The placement rule on its own: the mover places on an empty cell, or
      on an opponent's cell with a strictly higher level, never on its own
      mark, never above level 3, and only a level it still holds. */
  predicate IsLegal(b: Board, p: Player, inv: Inventory, m: Move)
    requires IsGrid(b)
  {
    && m.player == p
    && OnBoard(m.row, m.col)
    && ValidLevel(m.level)
    && Remaining(inv, m.level) > 0
    && (b[m.row][m.col].None? || (b[m.row][m.col].value.player != p && b[m.row][m.col].value.level < m.level))
  }

  /** Position of the move's cell in row-major order. */
  function CellIndex(m: Move): int {
    3 * m.row + m.col
  }

  /** Generator order: by cell in row-major order, then by level. */
  predicate Precedes(a: Move, b: Move) {
    CellIndex(a) < CellIndex(b) || (CellIndex(a) == CellIndex(b) && a.level < b.level)
  }

  predicate InGeneratorOrder(ms: seq<Move>) {
    forall x, y :: 0 <= x < y < |ms| ==> Precedes(ms[x], ms[y])
  }

  /** The lowest level that may go on `c`: 1 when empty, one above the
      occupant's level otherwise. */
  function StartLevel(c: Cell): int {
    if c.Some? then c.value.level + 1 else 1
  }

  /** The level loop for one cell, from `level` up to 3, skipping levels
      the mover has run out of. */
  function LevelMoves(p: Player, inv: Inventory, row: int, col: int, level: int): (ms: seq<Move>)
    requires 1 <= level
    decreases 4 - level
    ensures forall m :: m in ms ==>
      m.player == p && m.row == row && m.col == col && level <= m.level <= 3 && Remaining(inv, m.level) > 0
    ensures forall l :: level <= l <= 3 && Remaining(inv, l) > 0 ==> Move(p, l, row, col) in ms
    ensures forall x, y :: 0 <= x < y < |ms| ==> ms[x].level < ms[y].level
  {
    if level > 3 then []
    else if Remaining(inv, level) <= 0 then LevelMoves(p, inv, row, col, level + 1)
    else [Move(p, level, row, col)] + LevelMoves(p, inv, row, col, level + 1)
  }

  /** The moves at one cell: none on the mover's own mark. */
  function CellMoves(b: Board, p: Player, inv: Inventory, row: int, col: int): (ms: seq<Move>)
    requires ValidBoard(b) && OnBoard(row, col)
    ensures forall m :: m in ms <==> IsLegal(b, p, inv, m) && m.row == row && m.col == col
    ensures forall x, y :: 0 <= x < y < |ms| ==> ms[x].level < ms[y].level
  {
    var cell := b[row][col];
    if Owns(cell, p) then [] else LevelMoves(p, inv, row, col, StartLevel(cell))
  }

  /** The nested row and column loops, from cell (`row`, `col`) onwards. */
  function MovesFrom(b: Board, p: Player, inv: Inventory, row: int, col: int): (ms: seq<Move>)
    requires ValidBoard(b) && 0 <= row <= 3 && 0 <= col <= 3
    decreases 3 - row, 3 - col
    ensures forall m :: m in ms <==> IsLegal(b, p, inv, m) && 3 * row + col <= CellIndex(m)
    ensures InGeneratorOrder(ms)
  {
    if row == 3 then []
    else if col == 3 then MovesFrom(b, p, inv, row + 1, 0)
    else
      var here := CellMoves(b, p, inv, row, col);
      var rest := MovesFrom(b, p, inv, row, col + 1);
      CellMovesInOrder(b, p, inv, row, col);
      OrderedConcat(here, rest, 3 * row + col);
      CellThenRest(b, p, inv, row, col, here, rest);
      here + rest
  }

  /** The moves at one cell followed by the legal moves beyond it are the
      legal moves from that cell on. */
  lemma CellThenRest(b: Board, p: Player, inv: Inventory, row: int, col: int, here: seq<Move>, rest: seq<Move>)
    requires ValidBoard(b) && OnBoard(row, col)
    requires forall m :: m in here <==> IsLegal(b, p, inv, m) && m.row == row && m.col == col
    requires forall m :: m in rest <==> IsLegal(b, p, inv, m) && 3 * row + col + 1 <= CellIndex(m)
    ensures forall m :: m in here + rest <==> IsLegal(b, p, inv, m) && 3 * row + col <= CellIndex(m)
  {
    forall m
      ensures m in here + rest <==> IsLegal(b, p, inv, m) && 3 * row + col <= CellIndex(m)
    {
      if IsLegal(b, p, inv, m) && 3 * row + col <= CellIndex(m) && !(m in rest) {
        assert m.row == row && m.col == col;
      }
    }
  }

  /** The moves at one cell share its index and rise in level. */
  lemma CellMovesInOrder(b: Board, p: Player, inv: Inventory, row: int, col: int)
    requires ValidBoard(b) && OnBoard(row, col)
    ensures InGeneratorOrder(CellMoves(b, p, inv, row, col))
    ensures forall x :: 0 <= x < |CellMoves(b, p, inv, row, col)| ==>
      CellIndex(CellMoves(b, p, inv, row, col)[x]) == 3 * row + col
  {
    var ms := CellMoves(b, p, inv, row, col);
    forall x | 0 <= x < |ms|
      ensures CellIndex(ms[x]) == 3 * row + col
    {
      assert ms[x] in ms;
    }
  }

  /** Two runs in generator order, the first wholly at cell index `k` and
      the second wholly beyond it, concatenate in generator order. */
  lemma OrderedConcat(a: seq<Move>, c: seq<Move>, k: int)
    requires InGeneratorOrder(a) && InGeneratorOrder(c)
    requires forall x :: 0 <= x < |a| ==> CellIndex(a[x]) == k
    requires forall m :: m in c ==> k < CellIndex(m)
    ensures InGeneratorOrder(a + c)
  {
    var s := a + c;
    forall x, y | 0 <= x < y < |s|
      ensures Precedes(s[x], s[y])
    {
      if y >= |a| {
        assert s[y] == c[y - |a|] && c[y - |a|] in c;
        if x < |a| {
          assert s[x] == a[x];
        } else {
          assert s[x] == c[x - |a|];
        }
      } else {
        assert s[x] == a[x] && s[y] == a[y];
      }
    }
  }

  /** Every legal move of `p` and nothing else, each once, in generator order. */
  function FindPossibleMoves(b: Board, p: Player, inv: Inventory): (ms: seq<Move>)
    requires ValidBoard(b)
    ensures forall m :: m in ms <==> IsLegal(b, p, inv, m)
    ensures forall k :: 0 <= k < |ms| ==> IsLegal(b, p, inv, ms[k])
    ensures InGeneratorOrder(ms)
  {
    var ms := MovesFrom(b, p, inv, 0, 0);
    assert forall k :: 0 <= k < |ms| ==> ms[k] in ms;
    ms
  }

  /** A legal level-1 move on the first cell is the first move generated. */
  lemma FirstCellMoveLeads(b: Board, p: Player, inv: Inventory)
    requires ValidBoard(b) && IsLegal(b, p, inv, Move(p, 1, 0, 0))
    ensures var ms := FindPossibleMoves(b, p, inv);
      ms != [] && ms[0] == Move(p, 1, 0, 0)
  {
    FirstCellLowestLeads(b, p, inv, FindPossibleMoves(b, p, inv));
  }

  /** In a run in generator order holding exactly the legal moves, a legal
      level-1 move on the first cell comes first: no legal move precedes it. */
  lemma FirstCellLowestLeads(b: Board, p: Player, inv: Inventory, ms: seq<Move>)
    requires IsGrid(b) && IsLegal(b, p, inv, Move(p, 1, 0, 0))
    requires InGeneratorOrder(ms) && forall m :: m in ms <==> IsLegal(b, p, inv, m)
    ensures ms != [] && ms[0] == Move(p, 1, 0, 0)
  {
    var m := Move(p, 1, 0, 0);
    forall k | 0 <= k < |ms|
      ensures !Precedes(ms[k], m)
    {
      assert ms[k] in ms;
    }
    LowestLeads(ms, m);
  }

  /** A member of a run in generator order that nothing in the run
      precedes is the run's first move. */
  lemma LowestLeads(ms: seq<Move>, m: Move)
    requires InGeneratorOrder(ms) && m in ms
    requires forall k :: 0 <= k < |ms| ==> !Precedes(ms[k], m)
    ensures ms != [] && ms[0] == m
  {
    var j :| 0 <= j < |ms| && ms[j] == m;
    assert !Precedes(ms[0], ms[j]);
  }
}

=== FILE: schema.dfy ===
/** The value model of the game: sides, marks, the 3x3 board, each side's
    per-level inventory, the game state and a move, together with the
    validity predicates that the request schema enforces before the engine
    ever sees a state. */
module GameSchema {
  import opened Wrappers

  /** The two sides. `Human` is the program's `PLAYER`; `AI` is the engine. */
  datatype Player = Human | AI

  function Opponent(p: Player): (q: Player)
    ensures q != p
  {
    if p == AI then Human else AI
  }

  /** A mark placed on the board: its owner and its strength. */
  datatype Mark = Mark(player: Player, level: int)

  /** A cell is empty (`None`) or holds one mark. */
  type Cell = Option<Mark>

  /** The board as rows of cells; its shape is checked by `IsGrid`. */
  type Board = seq<seq<Cell>>

  /** How many marks of each level a side may still place. */
  datatype Inventory = Inventory(level1: int, level2: int, level3: int)

  /** A whole game: both inventories and the board. The side to move is
      not part of the state; the search passes it alongside. */
  datatype Game = Game(aiState: Inventory, playerState: Inventory, board: Board)

  /** `player` places a mark of strength `level` at (`row`, `col`). */
  datatype Move = Move(player: Player, level: int, row: int, col: int)

  predicate ValidLevel(level: int) {
    1 <= level <= 3
  }

  /** A cell is empty, or its mark has a level from 1 to 3. */
  predicate ValidCell(c: Cell) {
    c.None? || ValidLevel(c.value.level)
  }

  /** Exactly three rows of exactly three cells. */
  predicate IsGrid(b: Board) {
    |b| == 3 && forall i :: 0 <= i < 3 ==> |b[i]| == 3
  }

  predicate OnBoard(row: int, col: int) {
    0 <= row < 3 && 0 <= col < 3
  }

  predicate ValidBoard(b: Board) {
    IsGrid(b) && forall i, j :: 0 <= i < 3 && 0 <= j < 3 ==> ValidCell(b[i][j])
  }

  predicate ValidInventory(inv: Inventory) {
    inv.level1 >= 0 && inv.level2 >= 0 && inv.level3 >= 0
  }

  /** What the schema checks of a game, and nothing more: no limit on
      inventory sizes, no consistency between board and inventories. */
  predicate ValidGame(g: Game) {
    ValidInventory(g.aiState) && ValidInventory(g.playerState) && ValidBoard(g.board)
  }

  /** The schema constrains only the level of a move; row and column are
      arbitrary numbers, so a move is on the board only because the move
      generator produced it. */
  predicate ValidMove(m: Move) {
    ValidLevel(m.level)
  }

  /** The inventory entry for one level. */
  function Remaining(inv: Inventory, level: int): int
    requires ValidLevel(level)
  {
    if level == 1 then inv.level1 else if level == 2 then inv.level2 else inv.level3
  }

  /** Uses up one mark of the given level. No check is made that one is left. */
  function Decrement(inv: Inventory, level: int): (r: Inventory)
    requires ValidLevel(level)
    ensures Remaining(r, level) == Remaining(inv, level) - 1
    ensures forall l :: ValidLevel(l) && l != level ==> Remaining(r, l) == Remaining(inv, l)
    ensures Total(r) == Total(inv) - 1
  {
    if level == 1 then inv.(level1 := inv.level1 - 1)
    else if level == 2 then inv.(level2 := inv.level2 - 1)
    else inv.(level3 := inv.level3 - 1)
  }

  /** All marks a side still holds, whatever their level. */
  function Total(inv: Inventory): int {
    inv.level1 + inv.level2 + inv.level3
  }

  /** The inventory of the given side. */
  function InventoryOf(g: Game, p: Player): Inventory {
    if p == AI then g.aiState else g.playerState
  }

  /** The cell holds a mark of `p`, at any level. */
  predicate Owns(c: Cell, p: Player) {
    c.Some? && c.value.player == p
  }

  /** Who holds the cell, forgetting the level. */
  function OwnerOf(c: Cell): (o: Option<Player>)
    ensures forall p :: Owns(c, p) <==> o == Some(p)
  {
    if c.Some? then Some(c.value.player) else None
  }

  function EmptyBoard(): (b: Board)
    ensures ValidBoard(b)
    ensures forall i, j :: 0 <= i < 3 && 0 <= j < 3 ==> b[i][j].None?
  {
    [[None, None, None], [None, None, None], [None, None, None]]
  }
}

=== FILE: search.dfy ===
/** Minimax search with alpha-beta pruning, without the persistent cache.
    The AI maximises and the human minimises. A search at `depth` scores a
    win for the AI as `MaxValue - depth` and a win for the human as
    `-MaxValue + depth`. */
module Search {
  import opened Wrappers
  import opened GameSchema
  import opened WinCheck
  import opened BoardFull
  import opened BoardMove
  import opened MoveGen

  const MaxValue: int := 100

  /** A position's score and the move chosen there; no move at a terminal
      position or when the side to move has none. */
  datatype SearchResult = SearchResult(score: int, move: Option<Move>)

  /** The alpha-beta window. */
  datatype Bounds = Bounds(alpha: int, beta: int)

  function Max(a: int, b: int): int { if a >= b then a else b }

  function Min(a: int, b: int): int { if a <= b then a else b }

  /** All marks both sides still hold; every ply uses one up. */
  function Stock(g: Game): nat
    requires ValidGame(g)
  {
    Total(g.aiState) + Total(g.playerState)
  }

  /** The level a cell adds to the board's level sum: 0 when empty. */
  function CellLevel(c: Cell): int {
    if c.Some? then c.value.level else 0
  }

  function RowLevels(row: seq<Cell>): (s: int)
    requires |row| == 3
    ensures ValidCell(row[0]) && ValidCell(row[1]) && ValidCell(row[2]) ==> 0 <= s <= 9
  {
    CellLevel(row[0]) + CellLevel(row[1]) + CellLevel(row[2])
  }

  /** The sum of the levels on the board: nine cells of level at most 3. */
  function LevelSum(b: Board): (s: int)
    requires IsGrid(b)
    ensures ValidBoard(b) ==> 0 <= s <= 27
  {
    RowLevels(b[0]) + RowLevels(b[1]) + RowLevels(b[2])
  }

  /** How far the level sum may still rise. Every ply raises it by at least
      one, so no more plies than this can follow a position. */
  function Headroom(b: Board): int
    requires IsGrid(b)
  {
    27 - LevelSum(b)
  }

  /** Depths at which the score bounds hold: no leaf below can lie deeper
      than `2 * MaxValue`. */
  predicate WithinHorizon(g: Game, depth: int)
    requires ValidGame(g)
  {
    0 <= depth && depth + Headroom(g.board) <= 2 * MaxValue
  }

  /** The terminal check. Its three tests run one after another and a later
      hit replaces an earlier one: a full board scores 0 even when a line
      exists, and a human line beats an AI line. */
  function Terminal(b: Board, depth: int): (outcome: Option<int>)
    requires IsGrid(b)
    ensures CheckBoardFull(b) ==> outcome == Some(0)
    ensures !CheckBoardFull(b) && CheckWin(b, Human) ==> outcome == Some(-MaxValue + depth)
    ensures !CheckBoardFull(b) && !CheckWin(b, Human) && CheckWin(b, AI) ==> outcome == Some(MaxValue - depth)
    ensures outcome.None? <==> !CheckBoardFull(b) && !CheckWin(b, Human) && !CheckWin(b, AI)
  {
    var afterAi := if CheckWin(b, AI) then Some(MaxValue - depth) else None;
    var afterHuman := if CheckWin(b, Human) then Some(-MaxValue + depth) else afterAi;
    if CheckBoardFull(b) then Some(0) else afterHuman
  }

  /** `after` is `before` with `m` played by `side`: the target cell holds
      the new mark, every other cell is as it was, the mover has one mark
      fewer of that level and the other side's inventory is untouched. */
  ghost predicate Placed(before: Game, after: Game, side: Player, m: Move)
    requires IsGrid(before.board) && OnBoard(m.row, m.col) && ValidLevel(m.level)
  {
    && IsGrid(after.board)
    && after.board[m.row][m.col] == Some(Mark(m.player, m.level))
    && (forall i, j :: 0 <= i < 3 && 0 <= j < 3 && (i, j) != (m.row, m.col) ==> after.board[i][j] == before.board[i][j])
    && Remaining(InventoryOf(after, side), m.level) == Remaining(InventoryOf(before, side), m.level) - 1
    && (forall l :: ValidLevel(l) && l != m.level ==> Remaining(InventoryOf(after, side), l) == Remaining(InventoryOf(before, side), l))
    && InventoryOf(after, Opponent(side)) == InventoryOf(before, Opponent(side))
  }

  /** One ply of the search: the side to move plays a legal move. */
  function Play(g: Game, next: Player, m: Move): (r: Game)
    requires ValidGame(g) && IsLegal(g.board, next, InventoryOf(g, next), m)
    ensures Placed(g, r, next, m)
    ensures ValidGame(r)
    ensures Stock(r) == Stock(g) - 1
  {
    var placed := MoveBoard(g.board, m, InventoryOf(g, next));
    if next == AI then Game(placed.state, g.playerState, placed.board)
    else Game(g.aiState, placed.state, placed.board)
  }

  /** The starting best score: the worst outcome for the side to move. */
  function Worst(next: Player): int {
    if next == AI then -MaxValue else MaxValue
  }

  /** The running best after seeing `score`. */
  function Better(next: Player, best: int, score: int): int {
    if next == AI then Max(best, score) else Min(best, score)
  }

  /** The window after seeing `score`: the AI raises alpha, the human lowers beta. */
  function Narrow(next: Player, w: Bounds, score: int): Bounds {
    if next == AI then Bounds(Max(w.alpha, score), w.beta) else Bounds(w.alpha, Min(w.beta, score))
  }

  predicate Pruned(w: Bounds) {
    w.beta <= w.alpha
  }

  /** The search: a terminal position is scored on the spot, any other is
      expanded. */
  function Minimax(g: Game, next: Player, alpha: int, beta: int, depth: int): (r: SearchResult)
    requires ValidGame(g)
    decreases Stock(g), 3
    ensures WithinHorizon(g, depth) ==> -MaxValue <= r.score <= MaxValue
    ensures Terminal(g.board, depth).Some? ==> r == SearchResult(Terminal(g.board, depth).value, None)
    ensures r.move.Some? ==> IsLegal(g.board, next, InventoryOf(g, next), r.move.value)
    ensures r.move.None? <==>
      Terminal(g.board, depth).Some? || FindPossibleMoves(g.board, next, InventoryOf(g, next)) == []
    ensures Terminal(g.board, depth).None? && FindPossibleMoves(g.board, next, InventoryOf(g, next)) == [] ==>
      r.score == Worst(next)
  {
    var outcome := Terminal(g.board, depth);
    if outcome.Some? then SearchResult(outcome.value, None)
    else Expand(g, next, alpha, beta, depth)
  }

  /** A non-terminal position: generate the mover's moves and run the move
      loop from the worst score, with the first move as the provisional
      choice. With no moves the result is the worst score and no move. */
  function Expand(g: Game, next: Player, alpha: int, beta: int, depth: int): (r: SearchResult)
    requires ValidGame(g)
    decreases Stock(g), 2
    ensures WithinHorizon(g, depth) ==> -MaxValue <= r.score <= MaxValue
    ensures r.move.Some? ==> IsLegal(g.board, next, InventoryOf(g, next), r.move.value)
    ensures r.move.None? <==> FindPossibleMoves(g.board, next, InventoryOf(g, next)) == []
    ensures r.move.None? ==> r.score == Worst(next)
  {
    var moves := FindPossibleMoves(g.board, next, InventoryOf(g, next));
    if moves == [] then SearchResult(Worst(next), None)
    else
      GeneratedMovesAreLegal(g, next);
      Loop(g, next, moves, 0, Bounds(alpha, beta), depth, Worst(next), Some(moves[0]))
  }

  predicate AllLegal(g: Game, next: Player, moves: seq<Move>)
    requires ValidGame(g)
  {
    forall k :: 0 <= k < |moves| ==> IsLegal(g.board, next, InventoryOf(g, next), moves[k])
  }

  lemma GeneratedMovesAreLegal(g: Game, next: Player)
    requires ValidGame(g)
    ensures AllLegal(g, next, FindPossibleMoves(g.board, next, InventoryOf(g, next)))
  {
    var moves := FindPossibleMoves(g.board, next, InventoryOf(g, next));
    forall k | 0 <= k < |moves|
      ensures IsLegal(g.board, next, InventoryOf(g, next), moves[k])
    {
      assert moves[k] in moves;
    }
  }

  /** The score the search gives a position searched inside window `w`. */
  function Score(g: Game, next: Player, w: Bounds, depth: int): (s: int)
    requires ValidGame(g)
    decreases Stock(g), 4
    ensures WithinHorizon(g, depth) ==> -MaxValue <= s <= MaxValue
  {
    Minimax(g, next, w.alpha, w.beta, depth).score
  }

  /** The score of the position reached by playing `m`, searched one ply
      deeper with the opponent to move inside window `w`. */
  function ChildScore(g: Game, next: Player, m: Move, w: Bounds, depth: int): (s: int)
    requires ValidGame(g) && IsLegal(g.board, next, InventoryOf(g, next), m)
    decreases Stock(g), 0, 1
    ensures WithinHorizon(g, depth) ==> -MaxValue <= s <= MaxValue
  {
    ScoreAfter(g, next, m, w, depth)
  }

  /** `ChildScore` spelled out: the opponent's search of the position after
      `m`. It is a step of its own so that reasoning about the move loop
      does not unfold the child position. */
  function ScoreAfter(g: Game, next: Player, m: Move, w: Bounds, depth: int): (s: int)
    requires ValidGame(g) && IsLegal(g.board, next, InventoryOf(g, next), m)
    decreases Stock(g), 0, 0
    ensures WithinHorizon(g, depth) ==> -MaxValue <= s <= MaxValue
  {
    PlayRaisesLevelSum(g, next, m);
    Score(Play(g, next, m), Opponent(next), w, depth + 1)
  }

  /** A legal move covers an empty cell or a weaker mark with a stronger
      one, so the board's level sum rises. */
  lemma PlayRaisesLevelSum(g: Game, next: Player, m: Move)
    requires ValidGame(g) && IsLegal(g.board, next, InventoryOf(g, next), m)
    ensures LevelSum(Play(g, next, m).board) > LevelSum(g.board)
  {
    var b, b' := g.board, Play(g, next, m).board;
    assert CellLevel(b'[m.row][m.col]) > CellLevel(b[m.row][m.col]);
    forall i | 0 <= i < 3 && i != m.row
      ensures RowLevels(b'[i]) == RowLevels(b[i])
    {
      assert b'[i][0] == b[i][0] && b'[i][1] == b[i][1] && b'[i][2] == b[i][2];
    }
  }

  /** Every search the program can start, at any depth up to
      `2 * MaxValue - 27`, scores within [-MaxValue, MaxValue]. */
  lemma ShallowScoresInRange(g: Game, next: Player, alpha: int, beta: int, depth: int)
    requires ValidGame(g) && 0 <= depth <= 2 * MaxValue - 27
    ensures -MaxValue <= Minimax(g, next, alpha, beta, depth).score <= MaxValue
  {
    ShallowIsWithinHorizon(g, depth);
  }

  /** Every position is within the horizon at any depth up to
      `2 * MaxValue - 27`, the program's own root depth 0 among them. */
  lemma ShallowIsWithinHorizon(g: Game, depth: int)
    requires ValidGame(g) && 0 <= depth <= 2 * MaxValue - 27
    ensures WithinHorizon(g, depth)
  {
  }

  /** The move loop from index `i`: score each child, keep the running best
      and the move that last matched it, narrow the window, and stop right
      after the child that closes it. */
  function Loop(g: Game, next: Player, moves: seq<Move>, i: int, w: Bounds, depth: int,
                best: int, bestMove: Option<Move>): (r: SearchResult)
    requires ValidGame(g) && AllLegal(g, next, moves) && 0 <= i <= |moves|
    decreases Stock(g), 1, |moves| - i
    ensures WithinHorizon(g, depth) && -MaxValue <= best <= MaxValue ==> -MaxValue <= r.score <= MaxValue
    ensures next == AI ==> r.score >= best
    ensures next == Human ==> r.score <= best
    ensures r.move.Some? ==> r.move == bestMove || r.move.value in moves
    ensures bestMove.Some? ==> r.move.Some?
  {
    if i == |moves| then SearchResult(best, bestMove)
    else
      var m := moves[i];
      var score := ChildScore(g, next, m, w, depth);
      var best' := Better(next, best, score);
      var bestMove' := if best' == score then Some(m) else bestMove;
      var w' := Narrow(next, w, score);
      if Pruned(w') then SearchResult(best', bestMove')
      else Loop(g, next, moves, i + 1, w', depth, best', bestMove')
  }
}

=== FILE: search_properties.dfy ===
/** What the move loop computes, stated against an independent account of
    it: the sequence of child scores the loop evaluates. The loop stops
    right after the first child that closes the alpha-beta window. Its
    score is the best of the starting score and those child scores. Its
    move is the last evaluated move that reached that score; ties go to
    the later move. */
module SearchProperties {
  import opened Wrappers
  import opened GameSchema
  import opened WinCheck
  import opened BoardFull
  import opened MoveGen
  import opened BoardMove
  import opened Search

  /** The best of `best` and all of `scores`, for the side to move: the
      maximum for the AI, the minimum for the human. */
  function Extreme(next: Player, best: int, scores: seq<int>): (e: int)
    decreases |scores|
    ensures next == AI ==> e >= best && forall n :: 0 <= n < |scores| ==> scores[n] <= e
    ensures next == Human ==> e <= best && forall n :: 0 <= n < |scores| ==> scores[n] >= e
    ensures e == best || exists n :: 0 <= n < |scores| && scores[n] == e
  {
    if |scores| == 0 then best
    else
      var e := Extreme(next, Better(next, best, scores[0]), scores[1..]);
      assert forall n :: 1 <= n < |scores| ==> scores[n] == scores[1..][n - 1];
      e
  }

  /** The index of the last score equal to `v`, or -1 when there is none. */
  function LastIndexOf(scores: seq<int>, v: int): (k: int)
    decreases |scores|
    ensures -1 <= k < |scores|
    ensures k >= 0 ==> scores[k] == v
    ensures forall n :: k < n < |scores| ==> scores[n] != v
  {
    if |scores| == 0 then -1
    else
      var k := LastIndexOf(scores[1..], v);
      assert forall n :: 1 <= n < |scores| ==> scores[n] == scores[1..][n - 1];
      if k >= 0 then k + 1 else if scores[0] == v then 0 else -1
  }

  /** The window after the loop has seen `scores`, starting from `w`. */
  function WindowAfter(next: Player, w: Bounds, scores: seq<int>): Bounds
    decreases |scores|
  {
    if |scores| == 0 then w else WindowAfter(next, Narrow(next, w, scores[0]), scores[1..])
  }

  /** The window after `scores` has the best of them folded into the
      mover's bound: alpha for the AI, beta for the human. */
  lemma {:induction false} WindowAfterIsExtreme(next: Player, w: Bounds, scores: seq<int>)
    decreases |scores|
    ensures next == AI ==> WindowAfter(next, w, scores) == Bounds(Extreme(AI, w.alpha, scores), w.beta)
    ensures next == Human ==> WindowAfter(next, w, scores) == Bounds(w.alpha, Extreme(Human, w.beta, scores))
  {
    if |scores| > 0 {
      WindowAfterIsExtreme(next, Narrow(next, w, scores[0]), scores[1..]);
    }
  }

  /** The scores a move loop over indices `i` to `end` evaluates with the
      child scorer `score`: each index is scored in the current window, and
      the loop stops right after the score that closes the window. */
  function Trace(score: (int, Bounds) -> int, next: Player, i: int, end: int, w: Bounds): (t: seq<int>)
    requires 0 <= i <= end
    decreases end - i
    ensures |t| <= end - i
    ensures |t| == 0 <==> i == end
  {
    if i == end then []
    else
      var s := score(i, w);
      var w' := Narrow(next, w, s);
      [s] + (if Pruned(w') then [] else Trace(score, next, i + 1, end, w'))
  }

  /** The search's child scorer over `moves`: index `k` is scored by
      searching the position after `moves[k]`. */
  function Scorer(g: Game, next: Player, moves: seq<Move>, depth: int): (int, Bounds) -> int
    requires ValidGame(g) && AllLegal(g, next, moves)
  {
    (k: int, w: Bounds) => if 0 <= k < |moves| then ChildScore(g, next, moves[k], w, depth) else 0
  }

  /** Applying the search's scorer to an index is searching that move. */
  lemma ScorerIsChildScore(g: Game, next: Player, moves: seq<Move>, depth: int, k: int, w: Bounds)
    requires ValidGame(g) && AllLegal(g, next, moves) && 0 <= k < |moves|
    ensures Scorer(g, next, moves, depth)(k, w) == ChildScore(g, next, moves[k], w, depth)
  {
  }

  /** The child scores the move loop from index `i` evaluates, in order. */
  function Evaluated(g: Game, next: Player, moves: seq<Move>, i: int, w: Bounds, depth: int): (t: seq<int>)
    requires ValidGame(g) && AllLegal(g, next, moves) && 0 <= i <= |moves|
    ensures |t| <= |moves| - i
    ensures |t| == 0 <==> i == |moves|
  {
    Trace(Scorer(g, next, moves, depth), next, i, |moves|, w)
  }

  /** One step of the evaluated scores: the first move's child score, then,
      unless it closed the window, the scores from the next move on in the
      narrowed window. */
  lemma EvaluatedStep(g: Game, next: Player, moves: seq<Move>, i: int, w: Bounds, depth: int)
    requires ValidGame(g) && AllLegal(g, next, moves) && 0 <= i < |moves|
    ensures var s := ChildScore(g, next, moves[i], w, depth);
      var w' := Narrow(next, w, s);
      Evaluated(g, next, moves, i, w, depth) ==
        [s] + (if Pruned(w') then [] else Evaluated(g, next, moves, i + 1, w', depth))
  {
    ScorerIsChildScore(g, next, moves, depth, i, w);
  }

  /** Reading a window off a prefix that starts with `s` is reading it off
      the rest of the prefix from the window `s` leaves. */
  lemma WindowAfterStep(next: Player, w: Bounds, s: int, rest: seq<int>)
    ensures forall n :: 0 < n <= 1 + |rest| ==>
      WindowAfter(next, w, ([s] + rest)[..n]) == WindowAfter(next, Narrow(next, w, s), rest[..n - 1])
  {
    var t := [s] + rest;
    forall n | 0 < n <= |t|
      ensures WindowAfter(next, w, t[..n]) == WindowAfter(next, Narrow(next, w, s), rest[..n - 1])
    {
      assert t[..n][0] == s && t[..n][1..] == rest[..n - 1];
    }
  }

  /** The `n`-th traced score is the scorer's value at index `i + n`, in
      the window left by the scores traced before it. */
  lemma {:induction false} TraceIsScored(score: (int, Bounds) -> int, next: Player, i: int, end: int, w: Bounds, n: int)
    requires 0 <= i <= end && 0 <= n < |Trace(score, next, i, end, w)|
    decreases n
    ensures Trace(score, next, i, end, w)[n] ==
      score(i + n, WindowAfter(next, w, Trace(score, next, i, end, w)[..n]))
  {
    var t := Trace(score, next, i, end, w);
    var s := score(i, w);
    var w' := Narrow(next, w, s);
    var rest := if Pruned(w') then [] else Trace(score, next, i + 1, end, w');
    assert t == [s] + rest;
    if n == 0 {
      assert t[..0] == [];
    } else {
      TraceIsScored(score, next, i + 1, end, w', n - 1);
      WindowAfterStep(next, w, s, rest);
    }
  }

  /** When the scorer only gives proper scores on the indices, so does
      every traced score. */
  lemma {:induction false} TraceWithinBounds(score: (int, Bounds) -> int, next: Player, i: int, end: int, w: Bounds)
    requires 0 <= i <= end
    requires forall k, v :: i <= k < end ==> -MaxValue <= score(k, v) <= MaxValue
    decreases end - i
    ensures forall n :: 0 <= n < |Trace(score, next, i, end, w)| ==>
      -MaxValue <= Trace(score, next, i, end, w)[n] <= MaxValue
  {
    if i < end {
      var t := Trace(score, next, i, end, w);
      var s := score(i, w);
      var w' := Narrow(next, w, s);
      var rest := if Pruned(w') then [] else Trace(score, next, i + 1, end, w');
      assert t == [s] + rest;
      if !Pruned(w') {
        TraceWithinBounds(score, next, i + 1, end, w');
      }
    }
  }

  /** The traced scores are a pruned prefix: the window is still open after
      every score but the last, and the trace stops short of the end only
      when the last score closed it. */
  lemma {:induction false} TraceStopsAtFirstCutoff(score: (int, Bounds) -> int, next: Player, i: int, end: int, w: Bounds)
    requires 0 <= i <= end
    decreases end - i
    ensures forall n :: 0 < n < |Trace(score, next, i, end, w)| ==>
      !Pruned(WindowAfter(next, w, Trace(score, next, i, end, w)[..n]))
    ensures |Trace(score, next, i, end, w)| < end - i ==>
      Pruned(WindowAfter(next, w, Trace(score, next, i, end, w)))
  {
    if i < end {
      var t := Trace(score, next, i, end, w);
      var s := score(i, w);
      var w' := Narrow(next, w, s);
      var rest := if Pruned(w') then [] else Trace(score, next, i + 1, end, w');
      assert t == [s] + rest;
      WindowAfterStep(next, w, s, rest);
      assert t[..|t|] == t && rest[..|rest|] == rest;
      if !Pruned(w') {
        TraceStopsAtFirstCutoff(score, next, i + 1, end, w');
      }
    }
  }

  /** The `n`-th evaluated score is the `n`-th child's score, searched in
      the window left by the scores evaluated before it. */
  lemma EvaluatedIsChildScore(g: Game, next: Player, moves: seq<Move>, i: int, w: Bounds, depth: int, n: int)
    requires ValidGame(g) && AllLegal(g, next, moves) && 0 <= i <= |moves|
    requires 0 <= n < |Evaluated(g, next, moves, i, w, depth)|
    ensures Evaluated(g, next, moves, i, w, depth)[n] ==
      ChildScore(g, next, moves[i + n], WindowAfter(next, w, Evaluated(g, next, moves, i, w, depth)[..n]), depth)
  {
    var score := Scorer(g, next, moves, depth);
    var t := Trace(score, next, i, |moves|, w);
    assert t == Evaluated(g, next, moves, i, w, depth);
    var window := WindowAfter(next, w, t[..n]);
    TraceIsScored(score, next, i, |moves|, w, n);
    assert t[n] == score(i + n, window);
    ScorerIsChildScore(g, next, moves, depth, i + n, window);
  }

  /** Each evaluated score is its child's score, searched in the window
      left by the scores evaluated before it. */
  lemma EvaluatedAreChildScores(g: Game, next: Player, moves: seq<Move>, i: int, w: Bounds, depth: int)
    requires ValidGame(g) && AllLegal(g, next, moves) && 0 <= i <= |moves|
    ensures forall n :: 0 <= n < |Evaluated(g, next, moves, i, w, depth)| ==>
      Evaluated(g, next, moves, i, w, depth)[n] ==
        ChildScore(g, next, moves[i + n], WindowAfter(next, w, Evaluated(g, next, moves, i, w, depth)[..n]), depth)
  {
    forall n | 0 <= n < |Evaluated(g, next, moves, i, w, depth)| {
      EvaluatedIsChildScore(g, next, moves, i, w, depth, n);
    }
  }

  /** Within the horizon every evaluated score is a proper score. */
  lemma EvaluatedWithinBounds(g: Game, next: Player, moves: seq<Move>, i: int, w: Bounds, depth: int)
    requires ValidGame(g) && AllLegal(g, next, moves) && 0 <= i <= |moves| && WithinHorizon(g, depth)
    ensures forall n :: 0 <= n < |Evaluated(g, next, moves, i, w, depth)| ==>
      -MaxValue <= Evaluated(g, next, moves, i, w, depth)[n] <= MaxValue
  {
    var score := Scorer(g, next, moves, depth);
    forall k, v | i <= k < |moves|
      ensures -MaxValue <= score(k, v) <= MaxValue
    {
      ScorerIsChildScore(g, next, moves, depth, k, v);
    }
    TraceWithinBounds(score, next, i, |moves|, w);
  }

  /** The evaluated scores are a pruned prefix of the moves' scores. */
  lemma EvaluatedStopsAtFirstCutoff(g: Game, next: Player, moves: seq<Move>, i: int, w: Bounds, depth: int)
    requires ValidGame(g) && AllLegal(g, next, moves) && 0 <= i <= |moves|
    ensures forall n :: 0 < n < |Evaluated(g, next, moves, i, w, depth)| ==>
      !Pruned(WindowAfter(next, w, Evaluated(g, next, moves, i, w, depth)[..n]))
    ensures |Evaluated(g, next, moves, i, w, depth)| < |moves| - i ==>
      Pruned(WindowAfter(next, w, Evaluated(g, next, moves, i, w, depth)))
  {
    TraceStopsAtFirstCutoff(Scorer(g, next, moves, depth), next, i, |moves|, w);
  }

  /** What the loop should return after evaluating `t` from index `i`:
      the best of `best` and `t`, with the last move of `t` reaching it,
      or `bestMove` when none does. */
  function BestOf(next: Player, moves: seq<Move>, i: int, t: seq<int>, best: int, bestMove: Option<Move>): SearchResult
    requires 0 <= i && i + |t| <= |moves|
  {
    var e := Extreme(next, best, t);
    var last := LastIndexOf(t, e);
    SearchResult(e, if last >= 0 then Some(moves[i + last]) else bestMove)
  }

  /** The best of `best` and `[s] + rest` folds `s` in first. */
  lemma ExtremeCons(next: Player, best: int, s: int, rest: seq<int>)
    ensures Extreme(next, best, [s] + rest) == Extreme(next, Better(next, best, s), rest)
  {
    assert ([s] + rest)[0] == s && ([s] + rest)[1..] == rest;
  }

  /** The last match in `[s] + rest` is the last match in `rest`, shifted
      by one, or `s` itself when `rest` has none. */
  lemma LastIndexOfCons(s: int, rest: seq<int>, v: int)
    ensures LastIndexOf([s] + rest, v) ==
      if LastIndexOf(rest, v) >= 0 then LastIndexOf(rest, v) + 1 else if s == v then 0 else -1
  {
    assert ([s] + rest)[0] == s && ([s] + rest)[1..] == rest;
  }

  /** Taking one score off the front of `t` is one step of the loop: fold
      it into the running best and, when it matches, make its move the
      provisional choice. */
  lemma BestOfStep(next: Player, moves: seq<Move>, i: int, s: int, rest: seq<int>, best: int, bestMove: Option<Move>)
    requires 0 <= i && i + 1 + |rest| <= |moves|
    ensures BestOf(next, moves, i, [s] + rest, best, bestMove) ==
      BestOf(next, moves, i + 1, rest, Better(next, best, s),
             if Better(next, best, s) == s then Some(moves[i]) else bestMove)
  {
    var best' := Better(next, best, s);
    var e := Extreme(next, best', rest);
    ExtremeCons(next, best, s, rest);
    LastIndexOfCons(s, rest, e);
    UnmatchedIsStart(next, best', rest);
    var last' := LastIndexOf(rest, e);
    if last' >= 0 {
      assert moves[i + (last' + 1)] == moves[(i + 1) + last'];
    }
  }

  /** When no score reaches the best, the best is the starting score. */
  lemma UnmatchedIsStart(next: Player, best: int, scores: seq<int>)
    ensures LastIndexOf(scores, Extreme(next, best, scores)) < 0 ==> Extreme(next, best, scores) == best
  {
  }

  /** The move loop agrees with the evaluated scores: its score is the
      best of the starting score and those scores, and its move is the
      last evaluated move reaching that score, or the provisional move
      when no evaluated child reaches it. */
  lemma {:induction false} LoopFollowsEvaluated(g: Game, next: Player, moves: seq<Move>, i: int, w: Bounds, depth: int,
                                                best: int, bestMove: Option<Move>)
    requires ValidGame(g) && AllLegal(g, next, moves) && 0 <= i <= |moves|
    decreases |moves| - i
    ensures Loop(g, next, moves, i, w, depth, best, bestMove) ==
      BestOf(next, moves, i, Evaluated(g, next, moves, i, w, depth), best, bestMove)
  {
    if i < |moves| {
      var s := ChildScore(g, next, moves[i], w, depth);
      var w' := Narrow(next, w, s);
      var best' := Better(next, best, s);
      var bestMove' := if best' == s then Some(moves[i]) else bestMove;
      EvaluatedStep(g, next, moves, i, w, depth);
      if Pruned(w') {
        BestOfStep(next, moves, i, s, [], best, bestMove);
        assert [s] + [] == [s];
      } else {
        LoopFollowsEvaluated(g, next, moves, i + 1, w', depth, best', bestMove');
        var rest := Evaluated(g, next, moves, i + 1, w', depth);
        BestOfStep(next, moves, i, s, rest, best, bestMove);
        calc {
          Loop(g, next, moves, i, w, depth, best, bestMove);
          Loop(g, next, moves, i + 1, w', depth, best', bestMove');
          BestOf(next, moves, i + 1, rest, best', bestMove');
          BestOf(next, moves, i, [s] + rest, best, bestMove);
        }
      }
    }
  }

  /** When every score lies within the bounds, the best of the worst
      score and at least one score is reached by some score. */
  lemma BestIsReached(next: Player, t: seq<int>)
    requires |t| > 0
    requires forall n :: 0 <= n < |t| ==> -MaxValue <= t[n] <= MaxValue
    ensures LastIndexOf(t, Extreme(next, Worst(next), t)) >= 0
  {
    var e := Extreme(next, Worst(next), t);
    assert e == Worst(next) ==> t[0] == e;
  }

  /** Expanding a position returns the best of the worst score and the
      evaluated child scores, with the last evaluated move reaching it,
      or the first generated move when none does. */
  lemma ExpandKeepsLastBest(g: Game, next: Player, alpha: int, beta: int, depth: int)
    requires ValidGame(g)
    ensures var moves := FindPossibleMoves(g.board, next, InventoryOf(g, next));
      Expand(g, next, alpha, beta, depth) ==
        BestOf(next, moves, 0, Evaluated(g, next, moves, 0, Bounds(alpha, beta), depth),
               Worst(next), if |moves| > 0 then Some(moves[0]) else None)
  {
    var moves := FindPossibleMoves(g.board, next, InventoryOf(g, next));
    GeneratedMovesAreLegal(g, next);
    if moves != [] {
      LoopFollowsEvaluated(g, next, moves, 0, Bounds(alpha, beta), depth, Worst(next), Some(moves[0]));
    }
  }

  /** At a non-terminal position the search returns what expanding it
      returns. */
  lemma SearchKeepsLastBest(g: Game, next: Player, alpha: int, beta: int, depth: int)
    requires ValidGame(g) && Terminal(g.board, depth).None?
    ensures var moves := FindPossibleMoves(g.board, next, InventoryOf(g, next));
      Minimax(g, next, alpha, beta, depth) ==
        BestOf(next, moves, 0, Evaluated(g, next, moves, 0, Bounds(alpha, beta), depth),
               Worst(next), if |moves| > 0 then Some(moves[0]) else None)
  {
    ExpandKeepsLastBest(g, next, alpha, beta, depth);
  }

  /** Within the horizon some evaluated child always reaches the best
      score, so the first generated move is never kept by default. */
  lemma SearchChoosesEvaluatedMove(g: Game, next: Player, alpha: int, beta: int, depth: int)
    requires ValidGame(g) && WithinHorizon(g, depth)
    requires FindPossibleMoves(g.board, next, InventoryOf(g, next)) != []
    ensures var moves := FindPossibleMoves(g.board, next, InventoryOf(g, next));
      var t := Evaluated(g, next, moves, 0, Bounds(alpha, beta), depth);
      LastIndexOf(t, Extreme(next, Worst(next), t)) >= 0
  {
    var moves := FindPossibleMoves(g.board, next, InventoryOf(g, next));
    GeneratedMovesAreLegal(g, next);
    EvaluatedWithinBounds(g, next, moves, 0, Bounds(alpha, beta), depth);
    BestIsReached(next, Evaluated(g, next, moves, 0, Bounds(alpha, beta), depth));
  }

  /** A full board is a draw even when a side holds a line: here the AI
      holds the top row of a full board, and the position scores 0. */
  lemma FullBoardIsDrawDespiteLine(depth: int)
    ensures var a, h := Some(Mark(AI, 1)), Some(Mark(Human, 1));
      var b := [[a, a, a], [h, h, a], [a, h, h]];
      CheckWin(b, AI) && Terminal(b, depth) == Some(0)
  {
    var a, h := Some(Mark(AI, 1)), Some(Mark(Human, 1));
    var b := [[a, a, a], [h, h, a], [a, h, h]];
    assert HoldsLine(b, AI, Lines[0]);
    assert EmptyCells(b) == {};
  }

  /** A human line outranks an AI line: with the AI on the top row and the
      human on the middle row, the position scores as a human win. */
  lemma HumanLineOutranksAiLine(depth: int)
    ensures var a, h := Some(Mark(AI, 1)), Some(Mark(Human, 1));
      var b := [[a, a, a], [h, h, h], [None, None, None]];
      CheckWin(b, AI) && Terminal(b, depth) == Some(-MaxValue + depth)
  {
    var a, h := Some(Mark(AI, 1)), Some(Mark(Human, 1));
    var b := [[a, a, a], [h, h, h], [None, None, None]];
    assert HoldsLine(b, AI, Lines[0]);
    assert HoldsLine(b, Human, Lines[1]);
    assert (2, 0) in EmptyCells(b);
  }
  /** A position where pruning changes the AI's choice. The AI holds
      (0,1), (1,0) and (1,1) at level 2; the human holds (0,2), (1,2),
      (2,0) and (2,1) at level 1; (0,0) and (2,2) are empty. The AI has two
      level-1 marks left and the human one level-1 and one level-2 mark. */
  function PruningExample(): (g: Game)
    ensures ValidGame(g)
  {
    var a, h := Some(Mark(AI, 2)), Some(Mark(Human, 1));
    Game(Inventory(2, 0, 0), Inventory(1, 1, 0), [[None, a, h], [a, a, h], [h, h, None]])
  }

  /** A run in generator order repeats no move, so a run of one move
      holds it at most once. */
  lemma OrderedSingle(ms: seq<Move>, y: Move)
    requires InGeneratorOrder(ms)
    requires forall k :: 0 <= k < |ms| ==> ms[k] == y
    ensures |ms| <= 1
  {
    assert |ms| > 1 ==> Precedes(ms[0], ms[1]);
  }

  /** A run in generator order holding exactly two moves, `x` before `y`,
      is the pair itself. */
  lemma OrderedPair(ms: seq<Move>, x: Move, y: Move)
    requires InGeneratorOrder(ms) && Precedes(x, y)
    requires forall m :: m in ms <==> m == x || m == y
    ensures ms == [x, y]
  {
    assert x in ms && y in ms;
    var j :| 0 <= j < |ms| && ms[j] == x;
    assert ms[0] in ms && (j > 0 ==> Precedes(ms[0], ms[j]));
    var rest := ms[1..];
    forall k | 0 <= k < |rest|
      ensures rest[k] == y
    {
      assert Precedes(ms[0], ms[k + 1]) && ms[k + 1] in ms;
    }
    OrderedSingle(rest, y);
  }

  /** In the example the AI may only fill (0,0) or (2,2), in that order. */
  lemma PruningExampleMoves(g: Game)
    requires g == PruningExample()
    ensures FindPossibleMoves(g.board, AI, InventoryOf(g, AI)) == [Move(AI, 1, 0, 0), Move(AI, 1, 2, 2)]
  {
    var x, y, inv := Move(AI, 1, 0, 0), Move(AI, 1, 2, 2), InventoryOf(g, AI);
    assert inv == Inventory(2, 0, 0);
    forall m
      ensures IsLegal(g.board, AI, inv, m) <==> m == x || m == y
    {
    }
    OrderedPair(FindPossibleMoves(g.board, AI, inv), x, y);
  }

  /** After the AI fills (2,2) at level 1, the human covers it at level 2,
      completing row 2 and column 2 while (0,0) is still empty: a human win
      two plies below the root. */
  lemma PruningExampleReplyLoses()
    ensures var g := PruningExample();
      var m := Move(AI, 1, 2, 2);
      IsLegal(g.board, AI, g.aiState, m)
      && var child := Play(g, AI, m);
      var reply := Move(Human, 2, 2, 2);
      IsLegal(child.board, Human, child.playerState, reply)
      && Terminal(Play(child, Human, reply).board, 2) == Some(-MaxValue + 2)
  {
    var g := PruningExample();
    var m := Move(AI, 1, 2, 2);
    var child := Play(g, AI, m);
    var reply := Move(Human, 2, 2, 2);
    var b := Play(child, Human, reply).board;
    assert HoldsLine(b, Human, Lines[2]);
    assert (0, 0) in EmptyCells(b);
  }
  /** The position after the AI fills (2,2) in the example. */
  function PruningExampleChild(): (g: Game)
    ensures ValidGame(g)
  {
    var a, h := Some(Mark(AI, 2)), Some(Mark(Human, 1));
    Game(Inventory(1, 0, 0), Inventory(1, 1, 0), [[None, a, h], [a, a, h], [h, h, Some(Mark(AI, 1))]])
  }

  lemma PruningExampleChildIsPlayed(g: Game)
    requires g == PruningExample()
    ensures IsLegal(g.board, AI, InventoryOf(g, AI), Move(AI, 1, 2, 2))
    ensures Play(g, AI, Move(AI, 1, 2, 2)) == PruningExampleChild()
  {
    var m := Move(AI, 1, 2, 2);
    assert IsLegal(g.board, AI, InventoryOf(g, AI), m);
    var placed := MoveBoard(g.board, m, g.aiState);
    assert placed.state == Inventory(1, 0, 0);
    assert placed.board == g.board[2 := g.board[2][2 := Some(Mark(AI, 1))]];
    assert placed.board[2] == PruningExampleChild().board[2];
    assert placed.board == PruningExampleChild().board;
  }

  /** Covering the last empty cell ends the game in a draw: whatever the
      window and the depth, that child scores 0. */
  lemma FillingLastCellDraws(g: Game, next: Player, m: Move, w: Bounds, depth: int)
    requires ValidGame(g) && IsLegal(g.board, next, InventoryOf(g, next), m)
    requires EmptyCells(g.board) == {(m.row, m.col)}
    ensures ChildScore(g, next, m, w, depth) == 0
  {
    var child := Play(g, next, m);
    PlacementFillsTarget(g.board, m, InventoryOf(g, next));
    assert child.board == MoveBoard(g.board, m, InventoryOf(g, next)).board;
    assert CheckBoardFull(child.board);
    assert ScoreAfter(g, next, m, w, depth) == Score(child, Opponent(next), w, depth + 1);
  }

  /** When the child of the first generated move closes the window, the
      search looks no further: it returns that move with the side's best of
      its worst score and that child's score. */
  lemma FirstChildCutsOff(g: Game, next: Player, alpha: int, beta: int, depth: int)
    requires ValidGame(g) && Terminal(g.board, depth).None?
    requires var moves := FindPossibleMoves(g.board, next, InventoryOf(g, next));
      && moves != [] && AllLegal(g, next, moves)
      && Pruned(Narrow(next, Bounds(alpha, beta), ChildScore(g, next, moves[0], Bounds(alpha, beta), depth)))
    ensures var moves := FindPossibleMoves(g.board, next, InventoryOf(g, next));
      var s := ChildScore(g, next, moves[0], Bounds(alpha, beta), depth);
      Minimax(g, next, alpha, beta, depth) == SearchResult(Better(next, Worst(next), s), Some(moves[0]))
  {
    var moves := FindPossibleMoves(g.board, next, InventoryOf(g, next));
    assert Minimax(g, next, alpha, beta, depth) == Expand(g, next, alpha, beta, depth);
    assert Expand(g, next, alpha, beta, depth) ==
      Loop(g, next, moves, 0, Bounds(alpha, beta), depth, Worst(next), Some(moves[0]));
    LoopStopsAtFirst(g, next, moves, Bounds(alpha, beta), depth);
  }

  /** The move loop run from the first move stops after it when that
      child's score closes the window. */
  lemma LoopStopsAtFirst(g: Game, next: Player, moves: seq<Move>, w: Bounds, depth: int)
    requires ValidGame(g) && AllLegal(g, next, moves) && moves != []
    requires Pruned(Narrow(next, w, ChildScore(g, next, moves[0], w, depth)))
    ensures var s := ChildScore(g, next, moves[0], w, depth);
      Loop(g, next, moves, 0, w, depth, Worst(next), Some(moves[0])) ==
        SearchResult(Better(next, Worst(next), s), Some(moves[0]))
  {
  }

  /** The example child's empty cells and terminal status: only (0,0) is
      empty and neither side holds a line, so at any depth the position is
      not terminal. */
  lemma PruningExampleChildOpen(g: Game, depth: int)
    requires g == PruningExampleChild()
    ensures EmptyCells(g.board) == {(0, 0)}
    ensures Terminal(g.board, depth).None?
  {
    var b := g.board;
    assert (0, 0) in EmptyCells(b);
    forall n | 0 <= n < |Lines|
      ensures !HoldsLine(b, Human, Lines[n]) && !HoldsLine(b, AI, Lines[n])
    {
      HoldsLineThree(b, Human, Lines[n]);
      HoldsLineThree(b, AI, Lines[n]);
    }
  }

  /** There the human's first generated reply fills (0,0) at level 1. */
  lemma PruningExampleFirstReply(g: Game)
    requires g == PruningExampleChild()
    ensures var moves := FindPossibleMoves(g.board, Human, InventoryOf(g, Human));
      moves != [] && moves[0] == Move(Human, 1, 0, 0)
  {
    assert IsLegal(g.board, Human, InventoryOf(g, Human), Move(Human, 1, 0, 0));
    FirstCellMoveLeads(g.board, Human, InventoryOf(g, Human));
  }

  /** A drawn child closes any window whose alpha is at least 0 when the
      human moves. */
  lemma NonNegativeAlphaCutsDraw(alpha: int, beta: int)
    requires 0 <= alpha
    ensures Pruned(Narrow(Human, Bounds(alpha, beta), 0))
  {
  }

  /** When the first generated move fills the last empty cell and the
      draw it leads to closes the window, the search returns 0 with that
      move. */
  lemma FirstMoveFillsLastCell(g: Game, next: Player, alpha: int, beta: int, depth: int, m: Move)
    requires ValidGame(g) && Terminal(g.board, depth).None?
    requires var moves := FindPossibleMoves(g.board, next, InventoryOf(g, next));
      moves != [] && moves[0] == m
    requires EmptyCells(g.board) == {(m.row, m.col)}
    requires Pruned(Narrow(next, Bounds(alpha, beta), 0))
    ensures Minimax(g, next, alpha, beta, depth) == SearchResult(0, Some(m))
  {
    GeneratedMovesAreLegal(g, next);
    assert IsLegal(g.board, next, InventoryOf(g, next), m);
    FillingLastCellDraws(g, next, m, Bounds(alpha, beta), depth);
    FirstChildCutsOff(g, next, alpha, beta, depth);
  }

  /** Searched in any window whose alpha is at least 0, as the window
      (0, 100) left by the first move is, the position after the AI fills
      (2,2) returns 0 with the human's reply (0,0), not its true value: that
      reply fills the board, scores 0 and closes the window, so the winning
      reply is never looked at. */
  lemma PruningExampleCutsOff(g: Game, alpha: int, beta: int, depth: int)
    requires g == PruningExampleChild() && 0 <= alpha
    ensures Minimax(g, Human, alpha, beta, depth) == SearchResult(0, Some(Move(Human, 1, 0, 0)))
  {
    PruningExampleFirstReply(g);
    PruningExampleChildOpen(g, depth);
    NonNegativeAlphaCutsDraw(alpha, beta);
    FirstMoveFillsLastCell(g, Human, alpha, beta, depth, Move(Human, 1, 0, 0));
  }

  /** A child's score is the opponent's search of the position the move
      leads to, one ply deeper, in the same window. */
  lemma ChildScoreIsSearch(g: Game, next: Player, m: Move, w: Bounds, depth: int)
    requires ValidGame(g) && IsLegal(g.board, next, InventoryOf(g, next), m)
    ensures ChildScore(g, next, m, w, depth) ==
      Minimax(Play(g, next, m), Opponent(next), w.alpha, w.beta, depth + 1).score
  {
    assert ScoreAfter(g, next, m, w, depth) == Score(Play(g, next, m), Opponent(next), w, depth + 1);
  }

  /** The move loop over children that all score `v`, whatever their
      window, returns `v` once it has seen one of them. */
  lemma {:induction false} LoopOfEqualScores(g: Game, next: Player, moves: seq<Move>, i: int, w: Bounds, depth: int,
                                             v: int, best: int, bestMove: Option<Move>)
    requires ValidGame(g) && AllLegal(g, next, moves) && 0 <= i <= |moves|
    requires -MaxValue <= v <= MaxValue
    requires forall k, w' :: i <= k < |moves| ==> ChildScore(g, next, moves[k], w', depth) == v
    requires best == v || (best == Worst(next) && i < |moves|)
    decreases |moves| - i
    ensures Loop(g, next, moves, i, w, depth, best, bestMove).score == v
  {
    if i < |moves| {
      var s := ChildScore(g, next, moves[i], w, depth);
      assert s == v;
      var best' := Better(next, best, s);
      var bestMove' := if best' == s then Some(moves[i]) else bestMove;
      var w' := Narrow(next, w, s);
      if !Pruned(w') {
        LoopOfEqualScores(g, next, moves, i + 1, w', depth, v, best', bestMove');
      }
    }
  }

  /** When every move of a non-terminal position leads to a child scoring
      `v` in every window, the search scores the position `v`, whatever
      its own window. */
  lemma EqualChildrenScore(g: Game, next: Player, alpha: int, beta: int, depth: int, v: int)
    requires ValidGame(g) && Terminal(g.board, depth).None? && -MaxValue <= v <= MaxValue
    requires FindPossibleMoves(g.board, next, InventoryOf(g, next)) != []
    requires forall m, w :: IsLegal(g.board, next, InventoryOf(g, next), m) ==> ChildScore(g, next, m, w, depth) == v
    ensures Minimax(g, next, alpha, beta, depth).score == v
  {
    var moves := FindPossibleMoves(g.board, next, InventoryOf(g, next));
    assert Minimax(g, next, alpha, beta, depth) == Expand(g, next, alpha, beta, depth);
    assert Expand(g, next, alpha, beta, depth) ==
      Loop(g, next, moves, 0, Bounds(alpha, beta), depth, Worst(next), Some(moves[0]));
    forall k, w | 0 <= k < |moves|
      ensures ChildScore(g, next, moves[k], w, depth) == v
    {
      assert IsLegal(g.board, next, InventoryOf(g, next), moves[k]);
    }
    LoopOfEqualScores(g, next, moves, 0, Bounds(alpha, beta), depth, v, Worst(next), Some(moves[0]));
  }

  /** The example's root position is not terminal at depth 0: two cells
      are empty and neither side holds a line. */
  lemma PruningExampleOpen(g: Game)
    requires g == PruningExample()
    ensures Terminal(g.board, 0).None?
  {
    var b := g.board;
    assert (0, 0) in EmptyCells(b);
    forall n | 0 <= n < |Lines|
      ensures !HoldsLine(b, Human, Lines[n]) && !HoldsLine(b, AI, Lines[n])
    {
      HoldsLineThree(b, Human, Lines[n]);
      HoldsLineThree(b, AI, Lines[n]);
    }
  }

  /** The position after the AI fills (0,0) in the example instead. */
  function PruningExampleOther(): (g: Game)
    ensures ValidGame(g)
  {
    var a, h := Some(Mark(AI, 2)), Some(Mark(Human, 1));
    Game(Inventory(1, 0, 0), Inventory(1, 1, 0), [[Some(Mark(AI, 1)), a, h], [a, a, h], [h, h, None]])
  }

  lemma PruningExampleOtherIsPlayed(g: Game)
    requires g == PruningExample()
    ensures IsLegal(g.board, AI, InventoryOf(g, AI), Move(AI, 1, 0, 0))
    ensures Play(g, AI, Move(AI, 1, 0, 0)) == PruningExampleOther()
  {
    var m := Move(AI, 1, 0, 0);
    assert IsLegal(g.board, AI, InventoryOf(g, AI), m);
    var placed := MoveBoard(g.board, m, g.aiState);
    assert placed.state == Inventory(1, 0, 0);
    assert placed.board == g.board[0 := g.board[0][0 := Some(Mark(AI, 1))]];
    assert placed.board[0] == PruningExampleOther().board[0];
    assert placed.board == PruningExampleOther().board;
  }

  /** Only (2,2) is empty there and neither side holds a line. */
  lemma PruningExampleOtherOpen(g: Game, depth: int)
    requires g == PruningExampleOther()
    ensures EmptyCells(g.board) == {(2, 2)}
    ensures Terminal(g.board, depth).None?
  {
    var b := g.board;
    assert (2, 2) in EmptyCells(b);
    forall n | 0 <= n < |Lines|
      ensures !HoldsLine(b, Human, Lines[n]) && !HoldsLine(b, AI, Lines[n])
    {
      HoldsLineThree(b, Human, Lines[n]);
      HoldsLineThree(b, AI, Lines[n]);
    }
  }

  /** The position after the human then covers (0,0) at level 2. */
  function PruningExampleCovered(): (g: Game)
    ensures ValidGame(g)
  {
    var a, h := Some(Mark(AI, 2)), Some(Mark(Human, 1));
    Game(Inventory(1, 0, 0), Inventory(1, 0, 0), [[Some(Mark(Human, 2)), a, h], [a, a, h], [h, h, None]])
  }

  /** Covering (0,0) at level 2 places the human's mark there and uses up
      the human's level-2 mark. */
  lemma PruningExampleCoverPlacement()
    ensures MoveBoard(PruningExampleOther().board, Move(Human, 2, 0, 0), PruningExampleOther().playerState) ==
      Placement(PruningExampleCovered().board, Inventory(1, 0, 0))
  {
    var g, m := PruningExampleOther(), Move(Human, 2, 0, 0);
    var b, c := g.board, PruningExampleCovered().board;
    var row := b[0][0 := Some(Mark(Human, 2))];
    assert row == c[0] by {
      assert |row| == |c[0]| == 3;
      assert row[0] == c[0][0] && row[1] == c[0][1] && row[2] == c[0][2];
    }
    assert b[0 := row] == c by {
      assert |b[0 := row]| == |c| == 3;
      assert b[0 := row][1] == c[1] && b[0 := row][2] == c[2];
    }
    assert MoveBoard(b, m, g.playerState).board == b[0 := row];
  }

  lemma PruningExampleCoveredIsPlayed(g: Game)
    requires g == PruningExampleOther()
    ensures IsLegal(g.board, Human, g.playerState, Move(Human, 2, 0, 0))
    ensures Play(g, Human, Move(Human, 2, 0, 0)) == PruningExampleCovered()
  {
    var m := Move(Human, 2, 0, 0);
    assert IsLegal(g.board, Human, InventoryOf(g, Human), m);
    PruningExampleCoverPlacement();
  }

  /** Only (2,2) is empty there and neither side holds a line. */
  lemma PruningExampleCoveredOpen(g: Game, depth: int)
    requires g == PruningExampleCovered()
    ensures EmptyCells(g.board) == {(2, 2)}
    ensures Terminal(g.board, depth).None?
  {
    var b := g.board;
    assert (2, 2) in EmptyCells(b);
    forall n | 0 <= n < |Lines|
      ensures !HoldsLine(b, Human, Lines[n]) && !HoldsLine(b, AI, Lines[n])
    {
      HoldsLineThree(b, Human, Lines[n]);
      HoldsLineThree(b, AI, Lines[n]);
    }
  }

  /** With (0,0) covered, the AI's only legal move is level 1 on (2,2). */
  lemma PruningExampleCoveredMoves(g: Game)
    requires g == PruningExampleCovered()
    ensures forall m :: IsLegal(g.board, AI, InventoryOf(g, AI), m) <==> m == Move(AI, 1, 2, 2)
  {
    forall m | IsLegal(g.board, AI, InventoryOf(g, AI), m)
      ensures m == Move(AI, 1, 2, 2)
    {
    }
  }

  /** With (0,0) covered, the AI's only move fills (2,2): the search
      scores a draw in any window. */
  lemma PruningExampleCoveredDraws(g: Game, alpha: int, beta: int, depth: int)
    requires g == PruningExampleCovered()
    ensures Minimax(g, AI, alpha, beta, depth).score == 0
  {
    var last := Move(AI, 1, 2, 2);
    assert Terminal(g.board, depth).None? && EmptyCells(g.board) == {(2, 2)} by {
      PruningExampleCoveredOpen(g, depth);
    }
    assert forall m :: IsLegal(g.board, AI, InventoryOf(g, AI), m) <==> m == last by {
      PruningExampleCoveredMoves(g);
    }
    assert FindPossibleMoves(g.board, AI, InventoryOf(g, AI)) != [] by {
      assert last in FindPossibleMoves(g.board, AI, InventoryOf(g, AI));
    }
    forall m, w | IsLegal(g.board, AI, InventoryOf(g, AI), m)
      ensures ChildScore(g, AI, m, w, depth) == 0
    {
      FillingLastCellDraws(g, AI, m, w, depth);
    }
    EqualChildrenScore(g, AI, alpha, beta, depth, 0);
  }

  /** After the AI fills (0,0) the human may cover it at level 2 or fill
      (2,2), and nothing else. */
  lemma PruningExampleOtherMoves(g: Game)
    requires g == PruningExampleOther()
    ensures IsLegal(g.board, Human, InventoryOf(g, Human), Move(Human, 2, 0, 0))
    ensures forall m :: IsLegal(g.board, Human, InventoryOf(g, Human), m) ==>
      m == Move(Human, 2, 0, 0) || (m.row == 2 && m.col == 2)
  {
    forall m | IsLegal(g.board, Human, InventoryOf(g, Human), m)
      ensures m == Move(Human, 2, 0, 0) || (m.row == 2 && m.col == 2)
    {
    }
  }

  /** After the AI fills (0,0) every human reply draws: covering (0,0)
      leaves the AI only (2,2), and either level on (2,2) fills the board.
      So the search scores the position 0 in any window. */
  lemma PruningExampleOtherDraws(g: Game, alpha: int, beta: int, depth: int)
    requires g == PruningExampleOther()
    ensures Minimax(g, Human, alpha, beta, depth).score == 0
  {
    var cover := Move(Human, 2, 0, 0);
    assert Terminal(g.board, depth).None? && EmptyCells(g.board) == {(2, 2)} by {
      PruningExampleOtherOpen(g, depth);
    }
    assert IsLegal(g.board, Human, InventoryOf(g, Human), cover)
      && forall m :: IsLegal(g.board, Human, InventoryOf(g, Human), m) ==>
        m == cover || (m.row == 2 && m.col == 2) by {
      PruningExampleOtherMoves(g);
    }
    assert FindPossibleMoves(g.board, Human, InventoryOf(g, Human)) != [] by {
      assert cover in FindPossibleMoves(g.board, Human, InventoryOf(g, Human));
    }
    forall m, w | IsLegal(g.board, Human, InventoryOf(g, Human), m)
      ensures ChildScore(g, Human, m, w, depth) == 0
    {
      if m == cover {
        ChildScoreIsSearch(g, Human, m, w, depth);
        PruningExampleCoveredIsPlayed(g);
        PruningExampleCoveredDraws(Play(g, Human, m), w.alpha, w.beta, depth + 1);
      } else {
        FillingLastCellDraws(g, Human, m, w, depth);
      }
    }
    EqualChildrenScore(g, Human, alpha, beta, depth, 0);
  }

  /** The search from the example's root picks (2,2) with score 0: (0,0)
      draws and raises alpha to 0, then (2,2)'s child, searched in (0, 100),
      stops at the human's drawing first reply and also returns 0; the tie
      goes to the later move. Yet the human's level-2 reply on (2,2) wins,
      so the move chosen loses where (0,0) draws. */
  lemma PruningExampleChoosesLoss(g: Game)
    requires g == PruningExample()
    ensures Minimax(g, AI, -MaxValue, MaxValue, 0) == SearchResult(0, Some(Move(AI, 1, 2, 2)))
  {
    PruningExampleMoves(g);
    PruningExampleOpen(g);
    PruningExampleFirstMoveDraws(g);
    PruningExampleSecondMoveDraws(g);
    RootTiedDrawPicksSecond(g, Move(AI, 1, 0, 0), Move(AI, 1, 2, 2));
  }

  /** At a root where the AI has two moves and both draw, the first in the
      full window and the second in the window (0, 100) the first leaves,
      the search returns 0 and the second move. */
  lemma RootTiedDrawPicksSecond(g: Game, x: Move, y: Move)
    requires ValidGame(g) && Terminal(g.board, 0).None?
    requires FindPossibleMoves(g.board, AI, InventoryOf(g, AI)) == [x, y]
    requires IsLegal(g.board, AI, InventoryOf(g, AI), x) && IsLegal(g.board, AI, InventoryOf(g, AI), y)
    requires ChildScore(g, AI, x, Bounds(-MaxValue, MaxValue), 0) == 0
    requires ChildScore(g, AI, y, Bounds(0, MaxValue), 0) == 0
    ensures Minimax(g, AI, -MaxValue, MaxValue, 0) == SearchResult(0, Some(y))
  {
    assert Narrow(AI, Bounds(-MaxValue, MaxValue), 0) == Bounds(0, MaxValue);
    TiedPairPicksSecond(g, AI, -MaxValue, MaxValue, 0, x, y, 0);
  }

  /** A position with exactly two moves whose children score the same,
      the first leaving the window open: the search returns that score and
      the second move. */
  lemma TiedPairPicksSecond(g: Game, next: Player, alpha: int, beta: int, depth: int, x: Move, y: Move, v: int)
    requires ValidGame(g) && Terminal(g.board, depth).None?
    requires FindPossibleMoves(g.board, next, InventoryOf(g, next)) == [x, y]
    requires IsLegal(g.board, next, InventoryOf(g, next), x) && IsLegal(g.board, next, InventoryOf(g, next), y)
    requires -MaxValue <= v <= MaxValue && ChildScore(g, next, x, Bounds(alpha, beta), depth) == v
    requires !Pruned(Narrow(next, Bounds(alpha, beta), v))
    requires ChildScore(g, next, y, Narrow(next, Bounds(alpha, beta), v), depth) == v
    ensures Minimax(g, next, alpha, beta, depth) == SearchResult(v, Some(y))
  {
    var moves := FindPossibleMoves(g.board, next, InventoryOf(g, next));
    GeneratedMovesAreLegal(g, next);
    SearchIsLoop(g, next, alpha, beta, depth);
    LoopOverTwo(g, next, moves, Bounds(alpha, beta), depth);
  }

  /** At the example's root, filling (0,0) scores 0 in the full window. */
  lemma PruningExampleFirstMoveDraws(g: Game)
    requires g == PruningExample()
    ensures IsLegal(g.board, AI, InventoryOf(g, AI), Move(AI, 1, 0, 0))
    ensures ChildScore(g, AI, Move(AI, 1, 0, 0), Bounds(-MaxValue, MaxValue), 0) == 0
  {
    var x := Move(AI, 1, 0, 0);
    PruningExampleOtherIsPlayed(g);
    ChildScoreIsSearch(g, AI, x, Bounds(-MaxValue, MaxValue), 0);
    PruningExampleOtherDraws(Play(g, AI, x), -MaxValue, MaxValue, 1);
  }

  /** At the example's root, filling (2,2) scores 0 in the window (0, 100)
      that the first move leaves. */
  lemma PruningExampleSecondMoveDraws(g: Game)
    requires g == PruningExample()
    ensures IsLegal(g.board, AI, InventoryOf(g, AI), Move(AI, 1, 2, 2))
    ensures ChildScore(g, AI, Move(AI, 1, 2, 2), Bounds(0, MaxValue), 0) == 0
  {
    var y := Move(AI, 1, 2, 2);
    PruningExampleChildIsPlayed(g);
    ChildScoreIsSearch(g, AI, y, Bounds(0, MaxValue), 0);
    PruningExampleCutsOff(Play(g, AI, y), 0, MaxValue, 1);
  }

  /** At a non-terminal position with a move, the search is the move loop
      from the first move, the mover's worst score and the first move as
      the provisional choice. */
  lemma SearchIsLoop(g: Game, next: Player, alpha: int, beta: int, depth: int)
    requires ValidGame(g) && Terminal(g.board, depth).None?
    requires var moves := FindPossibleMoves(g.board, next, InventoryOf(g, next));
      moves != [] && AllLegal(g, next, moves)
    ensures var moves := FindPossibleMoves(g.board, next, InventoryOf(g, next));
      Minimax(g, next, alpha, beta, depth) ==
        Loop(g, next, moves, 0, Bounds(alpha, beta), depth, Worst(next), Some(moves[0]))
  {
    assert Minimax(g, next, alpha, beta, depth) == Expand(g, next, alpha, beta, depth);
  }

  /** The move loop over two moves, the first of which leaves the window
      open, returns the better of the two child scores for the mover; on a
      tie it returns the second move. */
  lemma LoopOverTwo(g: Game, next: Player, moves: seq<Move>, w: Bounds, depth: int)
    requires ValidGame(g) && AllLegal(g, next, moves) && |moves| == 2
    requires -MaxValue <= ChildScore(g, next, moves[0], w, depth) <= MaxValue
    requires !Pruned(Narrow(next, w, ChildScore(g, next, moves[0], w, depth)))
    ensures var s0 := ChildScore(g, next, moves[0], w, depth);
      var s1 := ChildScore(g, next, moves[1], Narrow(next, w, s0), depth);
      var best := Better(next, s0, s1);
      Loop(g, next, moves, 0, w, depth, Worst(next), Some(moves[0])) ==
        SearchResult(best, if best == s1 then Some(moves[1]) else Some(moves[0]))
  {
    var s0 := ChildScore(g, next, moves[0], w, depth);
    var w1 := Narrow(next, w, s0);
    assert Better(next, Worst(next), s0) == s0;
    var s1 := ChildScore(g, next, moves[1], w1, depth);
    var best := Better(next, s0, s1);
    var move := if best == s1 then Some(moves[1]) else Some(moves[0]);
    assert Loop(g, next, moves, 0, w, depth, Worst(next), Some(moves[0])) ==
      Loop(g, next, moves, 1, w1, depth, s0, Some(moves[0]));
    assert Loop(g, next, moves, 1, w1, depth, s0, Some(moves[0])) == SearchResult(best, move) by {
      var w2 := Narrow(next, w1, s1);
      if !Pruned(w2) {
        assert Loop(g, next, moves, 1, w1, depth, s0, Some(moves[0])) == Loop(g, next, moves, 2, w2, depth, best, move);
      }
    }
  }
}

=== FILE: wrappers.dfy ===
/** Optional values and success-or-error results, used for empty cells,
    absent moves and the service's thrown error. */
module Wrappers {

  /** A value that may be absent (`null` in the modelled program). */
  datatype Option<+T> = None | Some(value: T)

  /** The outcome of an operation that can fail with a message. */
  datatype Result<+T> = Success(value: T) | Failure(error: string)
}
